=== FILE: README.md ===
# Items and users REST API: a Dafny model of the controllers and the token gate

This project models the request handling of a small Express + knex REST
API. Users register, log in with an email and a password, and get a token
back. With that token they create, edit and delete items: a title, a price
and an optional uploaded image. The modelled parts are:

- **Item controller** (`ItemController`, item_controller.dfy). It lists and
  reads items, creates, updates and deletes them, and attaches or removes an
  item's image file. It also holds the two item validators.
- **User controller** (`UserController`, user_controller.dfy). It covers
  login, registration, updating the signed-in user, and listing and reading
  users. It also holds the two user validators.
- **Base controller** (`Base`, base_controller.dfy). It holds `_isNumeric`
  and `callOn`, which turns a handler's outcome into a response or passes a
  thrown error on. It also defines the `{field, message}` error records and
  `RouteKey`, which gives the row a route's `:id` names.
- **Server** (`Server`, server.dfy). It holds the token gate mounted on
  `/api/v1`, the error-handling middleware and the 404 fallback.

Supporting modules:

- **`JsValues`** models the JavaScript values these handlers see
  (`undefined`, `null`, booleans, numbers, strings). It also models the
  coercions the code relies on:
  - truthiness;
  - ToString and ToNumber, per sections 7.1.17 and 7.1.4 of ECMA-262;
  - the white space of `String.prototype.trim`;
  - the NaN test of `parseFloat`;
  - `===`.
- **`Patterns`** writes the five regular expressions as predicates on the
  matched text. `exec` first converts its argument to a string, so a missing
  field is tested as the text `"undefined"`.
- **`Store`** is the database and the uploads directory. It is a class `Db`
  with two tables, each a map from id to row, and a set of file names. The
  handlers are methods that update it in place.

Each validator is a method that accumulates errors step by step, as the
source does. It is proved against a specification function (`CreateErrors`,
`UpdateErrors`, `CreateFields`, `UpdateFields`). Lemmas then state what those
functions mean. Each handler's postcondition gives:
- the response for every branch (404, 403, 422, success);
- the new store contents, including the rows, files and id counters left untouched.

Inputs from outside the code are parameters:
- the signed-in user (`req.user`);
- the clock (`new Date().getTime()`);
- the new token (`uuid.v1()`);
- the uploaded file's metadata;
- the upload limits from `config.file`;
- a failing token lookup.

## Quirks of the code the model keeps

The model reproduces each behaviour below as the code has it.

- **Validation on create.** The item and user validators test a *missing*
  field as the string `"undefined"`.
  - A create without a title reports only "Title is required". The format
    error is not reported, and `validItem.title` is still set.
  - A registration without a name reports no name error at all.
- **Validation on update.**
  - `updateItem` always writes: `updated_at` is added before the "anything
    to change" test, so an empty update still changes the timestamp.
  - A user update with a truthy `current_password` keeps `new_password` as
    the new password, whatever the three password checks found. The checks
    still block the write through the 422.
- **Prices.** A negative price passes validation.
- **Uploads.** The size check rejects a file whose size *equals* the limit.
  An upload request without a file throws a TypeError when `req.files.file`
  is missing. The error handler then answers 500 with that TypeError's
  message. The model uses V8's wording before Node 16, "Cannot read property
  'size' of undefined"; later versions word it "Cannot read properties of
  undefined (reading 'size')". The model also assumes the upload middleware
  leaves `req.files` as an empty object.

## Model

| member | source | states |
|---|---|---|
| Base.IsNumeric | app/controllers/base.controller.js:26-28 | `_isNumeric(n)`: `parseFloat(n)` is not NaN and `n`, coerced to a number, is finite. |
| Base.IsNumericOnStrings | app/controllers/base.controller.js:26-28 | On a string, `_isNumeric` holds exactly when the string is not blank and all of it, surrounding white space aside, reads as a finite number. A prefix that parseFloat accepts is not enough. |
| Base.IsNumericOnNumbers | app/controllers/base.controller.js:26-28 | On a number, `_isNumeric` holds exactly for the finite ones. |
| Base.IsNumericRejectsNonNumbers | app/controllers/base.controller.js:26-28 | `undefined`, `null`, `true` and `false` are not numeric. |
| Base.IsNumericRejectsEmptyAndNonFinite | app/controllers/base.controller.js:26-28 | The empty string, NaN and both infinities are not numeric. |
| Base.IsNumericTrailingJunk | app/controllers/base.controller.js:26-28 | For "12abc", parseFloat is not NaN, yet `_isNumeric` is false, because `isFinite` coerces the whole string. |
| Base.IsNumericAcceptsNegatives | app/controllers/base.controller.js:26-28 | "-5" and the number -5 are numeric: there is no sign check. |
| Base.RouteKeyIff | app/controllers/item.controller.js:44-48 | `+req.params.id`, `_isNumeric` and `where({id})` together select row k exactly when k exists and the id's numeric value equals k. |
| Base.CallOn | app/controllers/base.controller.js:9-18 | A returned value is sent with status 200. A thrown error goes to `next` and nothing is sent. Responses the handler wrote itself (404, 403, 422 with the list) keep their status. |
| Patterns.TitlePattern | app/controllers/item.controller.js:16 | `titleRegex`: at least three ASCII letters or digits, then any run of letters, digits or white space, to the end. |
| Patterns.NamePattern | app/controllers/user.controller.js:16 | `nameRegex`: at least three ASCII letters, then any run of letters or white space, to the end. |
| Patterns.PhonePattern | app/controllers/user.controller.js:15 | `phoneRegex`: exactly `+380` followed by nine digits. |
| Patterns.PasswordPattern | app/controllers/user.controller.js:14 | `passwordRegex`: eight or more ASCII letters and digits, with at least one letter and at least one digit. |
| Patterns.EmailPattern | app/controllers/user.controller.js:13 | `emailRegex`: optional white space, a dot-separated local part of `[\w\-\+_]` runs, `@`, a domain of at least two such runs, optional white space. |
| Patterns.TitleExec | app/controllers/item.controller.js:223 | `titleRegex.exec(v)` tests ToString(v), so an absent title is tested as "undefined". |
| Patterns.NameExec | app/controllers/user.controller.js:141 | `nameRegex.exec(v)` tests ToString(v). |
| Patterns.PhoneExec | app/controllers/user.controller.js:129 | `phoneRegex.exec(v)` tests ToString(v). |
| Patterns.PasswordExec | app/controllers/user.controller.js:135 | `passwordRegex.exec(v)` tests ToString(v). |
| Patterns.EmailExec | app/controllers/user.controller.js:119 | `emailRegex.exec(v)` tests ToString(v). |
| Patterns.MissingFieldPassesTitleAndName | app/controllers/item.controller.js:16 | `exec(undefined)` matches the title expression and the name expression. |
| Patterns.MissingFieldFailsEmailPasswordPhone | app/controllers/user.controller.js:13-15 | `exec(undefined)` fails the email, password and phone expressions. |
| Patterns.TitleAndNameNonEmpty | app/controllers/item.controller.js:16 | Every accepted title or name is non-empty and starts with a letter or digit, or with a letter for names. |
| Patterns.PasswordExamples | app/controllers/user.controller.js:14 | For example, "passw0rd" is accepted, while "password", "12345678" and "pass0rd" are rejected. |
| Patterns.PasswordNeedsBothClasses | app/controllers/user.controller.js:14 | Every password shorter than eight characters, every all-letter password and every all-digit password is rejected. |
| Patterns.PasswordRejectsSymbols | app/controllers/user.controller.js:14 | Any character other than an ASCII letter or digit rejects a password. |
| Patterns.PhoneExamples | app/controllers/user.controller.js:15 | For example, "+380501234567" is accepted, while "380501234567" (no "+"), "+38050123456" (eight digits) and "+3805012345678" (ten digits) are rejected. |
| Patterns.PhoneShape | app/controllers/user.controller.js:15 | A phone number is accepted exactly when it has thirteen characters: "+", "3", "8", "0", then nine digits. |
| Patterns.EmailCoreShape | app/controllers/user.controller.js:13 | A trimmed accepted address has no white space and exactly one `@`. |
| Patterns.EmailIgnoresLeadingSpace | app/controllers/user.controller.js:13 | Leading white space does not change acceptance. |
| Patterns.EmailRejectsInnerSpace | app/controllers/user.controller.js:13 | White space between two non-blank parts rejects the address. |
| Patterns.EmailCoreIntro | app/controllers/user.controller.js:13 | A dot-atom local part, `@` and a dot-atom domain containing a dot form an accepted address. |
| Patterns.EmailAcceptsSimpleAddress | app/controllers/user.controller.js:13 | Every address local@host.tld whose three parts are non-empty runs of atom characters is accepted. |
| Patterns.EmailExampleAccepted | app/controllers/user.controller.js:13 | For example, "jane@mail.com" is accepted. |
| Patterns.EmailExampleRejected | app/controllers/user.controller.js:13 | A host name without a dot ("jane@localhost") is rejected. |
| ItemController.ValidateItemCreate | app/controllers/item.controller.js:215-240 | The errors are exactly `CreateErrors`: title required, title format, price required, price format, in that order. A field is kept exactly when its format check passes. |
| ItemController.ValidateItemUpdate | app/controllers/item.controller.js:248-265 | A falsy field is neither checked nor kept. A truthy title either yields "Title should contain at least 3 characters" or is kept. A truthy price either yields "Wrong price" or is kept. The title error comes first. |
| ItemController.CreateAcceptsIff | app/controllers/item.controller.js:215-240 | A create passes exactly when the title and price are both truthy and well formed, and then both are kept. |
| ItemController.CreateErrorsByField | app/controllers/item.controller.js:219-237 | Title errors name only "title", price errors only "price", and there are at most four. |
| ItemController.MissingTitleOnlyRequired | app/controllers/item.controller.js:219-227 | A missing title gives only "Title is required", and `validItem.title` is still set. |
| ItemController.EmptyTitleBothErrors | app/controllers/item.controller.js:219-227 | An empty title gives both title errors. |
| ItemController.MissingPriceBothErrors | app/controllers/item.controller.js:229-237 | A missing price gives both price errors. |
| ItemController.ZeroPriceOnlyRequired | app/controllers/item.controller.js:229-237 | The number 0 is numeric but falsy, so only "Price is required" is reported. |
| ItemController.NegativePriceAccepted | app/controllers/item.controller.js:229-237 | "-5" and -5 raise no price error. |
| ItemController.UpdateSkipsFalsy | app/controllers/item.controller.js:248-265 | An update is valid exactly when each truthy field is well formed. In that case exactly the truthy fields are kept. |
| ItemController.EmptyUpdateTouchesTimestamp | app/controllers/item.controller.js:74-78 | With nothing to change, the row is still rewritten with the new `updated_at` and is otherwise unchanged. |
| ItemController.ListOrderNormalised | app/controllers/item.controller.js:23-29 | The sort column is always a sortable field, and is "price" exactly when "price" was asked for. The direction is "desc" exactly when it is absent or "desc", and "asc" otherwise. |
| ItemController.GetItems | app/controllers/item.controller.js:22-38 | The result holds the projections of exactly the rows whose title contains the text and, when `user_id` is truthy and numeric, whose owner is that user. The order is the normalised one. |
| ItemController.GetItem | app/controllers/item.controller.js:43-55 | The projection of the row the id names, or 404. |
| ItemController.CreateItem | app/controllers/item.controller.js:119-132 | On errors: 422 with the list and no write. Otherwise one new row under a fresh id with the validated fields, the signed-in owner, no image and the clock readings. Its projection is returned, the item id counter moves past the new id, and nothing else changes. |
| ItemController.OwnedIff | app/controllers/item.controller.js:61-70 | The ownership chain yields row k exactly when the id names k and k belongs to the signed-in user. Otherwise it yields 404 or 403. |
| ItemController.UpdateItem | app/controllers/item.controller.js:60-90 | 404, 403 and 422 change nothing. Otherwise the owned row gets the validated fields and the new `updated_at`, and its projection is returned. |
| ItemController.RemoveItem | app/controllers/item.controller.js:95-114 | 404 and 403 change nothing. Otherwise exactly the owned row is deleted, and its image file stays. |
| ItemController.UploadImage | app/controllers/item.controller.js:137-179 | The checks run in order: size (a size equal to the limit is rejected), extension, id, owner. Every rejection removes only the new upload. On success the previous image file is removed if present, the row points at the new file with a new `updated_at`, and its projection is returned. Without a file, the handler throws. |
| ItemController.RemoveImage | app/controllers/item.controller.js:184-207 | 404 and 403 change nothing. Otherwise the image file is removed if present, and the row's image becomes NULL with a new `updated_at`. |
| UserController.ValidateUserCreate | app/controllers/user.controller.js:115-148 | The errors are exactly `CreateErrors`: email format, email in use (looked up whatever the format said), phone if given, password, name. The fields that pass are kept. |
| UserController.ValidateUserUpdate | app/controllers/user.controller.js:156-199 | The errors are exactly `UpdateErrors`: each falsy field is skipped, and the email is in use only if another row has it. The password checks run only with a current password. |
| UserController.CheckPasswordChange | app/controllers/user.controller.js:182-196 | The three password-change checks against the stored password. With a truthy current password the new password is kept, whatever the checks say. |
| UserController.CreateAcceptsIff | app/controllers/user.controller.js:115-148 | Registration passes exactly when the email is well formed and free, the phone (if given) is well formed, and the password and name are well formed. |
| UserController.CreateKeepsFields | app/controllers/user.controller.js:119-145 | An accepted registration keeps every field as sent, and the phone only if it was given. |
| UserController.TakenEmailAlwaysReported | app/controllers/user.controller.js:125-127 | "Email already in use" is reported exactly when some row has the email, whatever else is wrong. |
| UserController.MissingNameNotReported | app/controllers/user.controller.js:141-145 | A registration without a name gets no name error, and the name key is set to `undefined`. |
| UserController.MissingEmailAndPasswordReported | app/controllers/user.controller.js:119-139 | A registration without email and password reports both. |
| UserController.OwnEmailNotInUse | app/controllers/user.controller.js:178-180 | On update, "in use" is reported exactly when the email is truthy and another row has it. |
| UserController.NoPasswordChangeWithoutCurrent | app/controllers/user.controller.js:182-196 | Without a current password no password error is raised and no password is kept. |
| UserController.NewPasswordKeptRegardless | app/controllers/user.controller.js:195 | With a current password, `validUser.password` is the new password. |
| UserController.AllThreePasswordErrors | app/controllers/user.controller.js:182-193 | The three checks are independent: all three can fire at once. |
| UserController.PasswordChangeAccepted | app/controllers/user.controller.js:182-193 | A password change that passes has a well-formed new password and the right current password, and the new password differs from the current one. |
| UserController.Login | app/controllers/user.controller.js:22-35 | The result is the token of a row whose email and password both equal the request's (absent means ''), and it succeeds exactly when such a row exists. Otherwise it is 422 with the same message on both fields. |
| UserController.Register | app/controllers/user.controller.js:40-52 | On errors: 422 and no write. Otherwise one new row under a fresh id with the validated fields, NULL phone when none was given, the token and the clock readings. The token is returned, and the user id counter moves past the new id. |
| UserController.UpdateCurrentUser | app/controllers/user.controller.js:64-79 | 422 changes nothing. With no accepted field nothing is written. Otherwise the signed-in row gets the fields and `updated_at`. The row's projection is returned. |
| UserController.GetUsers | app/controllers/user.controller.js:84-91 | The result holds the projections of exactly the rows whose name and email contain the query texts. |
| UserController.GetUser | app/controllers/user.controller.js:96-107 | The projection (never the password or token) of the row the id names, or 404. |
| Server.Protected | app/server.js:90 | `app.use('/api/v1', …)` applies to a path whose lower-cased form is `/api/v1` or starts with `/api/v1/`. |
| Server.TokenGate | app/server.js:89-115 | The gate acts only on `/api/v1` and below, with case ignored. A missing or empty header gets 401. A failed lookup goes to `next`. Otherwise the request proceeds exactly when some row holds the token, with that row's projection as the user, and gets 401 if no row does. |
| Server.ProtectedIgnoresCase | app/server.js:90 | A path is gated exactly when its lower-case form is. |
| Server.NotProtectedAt | app/server.js:90 | A path whose lower-cased form differs from `/api/v1` within its first seven characters is not gated. |
| Server.ProtectedNeedsSegment | app/server.js:90 | `/api/v1` followed by anything but `/` (e.g. `/api/v10`) is not gated. |
| Server.HandleError | app/server.js:122-136 | The status is the error's `code` when truthy, else 500, so it is never falsy. An `Error` reports its `message` and itself as `detail`; anything else reports its `msg` with no detail. |
| Server.MissingUploadIs500 | app/server.js:122-136 | The error thrown by an upload request without a file has no code, so it is answered with 500, its message "Cannot read property 'size' of undefined" and the error as detail. |
| Server.Unmatched | app/server.js:138-143 | An unmatched request gets 404 with its URL and "Not Found". |

## Left out

- The `run` decorator (app/controllers/base.controller.js:34-36) only instantiates a controller class. Controller instances carry no state here besides the constants, which are Dafny constants.
- `getCurrentUser` (app/controllers/user.controller.js:57-59) returns `req.user` unchanged, which is the projection `Server.TokenGate` admits.
- SQL semantics:
  - Result order (`orderBy`) is left out: `GetItems` returns a set and the normalised `ListOrder` it would sort by.
  - The database's collation is left out, including any case-insensitive `=` or `LIKE`. `SqlEquals` is strict equality with NULL never matching, and `LikeContains` is case-sensitive containment.
  - The `user_id` filter of `getItems` compares through JavaScript ToNumber, so `0x2` selects user 2. The database would instead apply its own string-to-integer conversion when comparing a string with the integer column.
  - `%` and `_` inside a search text are matched literally.
- Column types, NOT NULL and uniqueness constraints of the migrations are not enforced. A row stores the request values it was written with.
- knex failing on an `undefined` binding is not modelled, and neither is any other store failure except the token lookup in the gate.
- Concurrency: the race between the email-in-use lookup and the insert is out of scope, because each handler runs atomically here.
- Rows matched by `[0]`: `Login` and `Server.TokenGate` pick *some* matching row. The source takes the first row the database returns, and no order is specified.
- `callOn` after a handler that already sent 404, 403 or 422 calls `res.status(200).send(undefined)` on a response that was already sent. `Base.CallOn` models only the first response, the one the client gets.
- In the error handler, `err.code || err.statusCode || err.status` is only evaluated when `err.code` is truthy, so the two alternatives are dead code.
- Base.IsNumeric: a numeral beyond the largest finite double, such as "1e400", is numeric in the model, whose numbers are exact decimals. The program finds it not finite, so such a price gets "Wrong price" there and is accepted here.
- Numbers:
  - They are exact decimals. IEEE-754 rounding, `-0` and the exact text of very large or very small numbers are not modelled.
  - `parseFloat` is modelled only as its NaN test, which is all `_isNumeric` uses.
- JSON bodies that are objects or arrays are not modelled: fields are primitives.
- multer's storage, file naming and `path.resolve` are not modelled. The upload is already in the uploads set, named by `UploadedFile.name`.
- Express bootstrap (`app/server.js` outside the gate and the two handlers), configuration loading, migrations, seeds and logging are not modelled.

=== FILE: base_controller.dfy ===
/**
 * What the controllers share (app/controllers/base.controller.js): the
 * `_isNumeric` test every id and price check goes through, the `{field,
 * message}` error records validators accumulate, the outcome a handler
 * reaches, and `callOn`, which turns that outcome into a response or hands
 * a thrown error on to the error middleware.
 */
module Base {
  import opened Wrappers
  import opened JsValues

  // ----- _isNumeric -----

  /** `_isNumeric(n)`: parseFloat(n) is not NaN and n coerces to a finite number. */
  predicate IsNumeric(v: JsValue) {
    !ParseFloatIsNaN(ToStr(v)) && ToNumber(v).Finite?
  }

  lemma StartsDecimalOfPrefix(u: string, w: string)
    requires StartsDecimal(u) && u <= w
    ensures StartsDecimal(w)
  {
    assert u[0] == w[0];
    if |u| >= 2 { assert u[1] == w[1]; }
  }

  /** Every literal that UnsignedDecimal accepts starts as parseFloat needs. */
  lemma UnsignedDecimalStart(u: string)
    requires UnsignedDecimal(u).Some?
    ensures StartsDecimal(u)
  {
    var i := IndexOfEither(u, 'e', 'E');
    var mantissa := u[..i];
    var d := IndexOfEither(mantissa, '.', '.');
    IndexOfEitherSpec(mantissa, '.', '.');
    if d > 0 {
      assert u[0] == mantissa[..d][0];
    } else {
      assert mantissa[0] == '.' && mantissa[1..][0] == u[1];
    }
  }

  lemma TrimStartEmpty(s: string)
    ensures TrimStart(s) == [] <==> AllSpace(s)
  {
    TrimStartSpec(s);
    var t := TrimStart(s);
    if t == [] {
      assert s[..|s|] == s;
    } else {
      assert t[0] == s[|s| - |t|];
    }
  }

  lemma TrimEndEmpty(s: string)
    ensures TrimEnd(s) == [] <==> AllSpace(s)
  {
    TrimEndSpec(s);
    var t := TrimEnd(s);
    if t == [] {
      assert s[0..] == s;
    } else {
      assert t[|t| - 1] == s[|t| - 1];
    }
  }

  /** A non-empty StrNumericLiteral with a finite value starts as parseFloat needs, after its sign. */
  lemma FiniteLiteralStart(t: string)
    requires t != [] && LiteralToNumber(t).Finite?
    ensures StartsDecimal(if t[0] == '+' || t[0] == '-' then t[1..] else t)
  {
    if !(|t| >= 2 && t[0] == '0' && PrefixRadix(t[1]) != 0) {
      var u := if t[0] == '-' || t[0] == '+' then t[1..] else t;
      UnsignedDecimalStart(u);
    }
  }

  /**
   * On a string, `_isNumeric` holds exactly when the string is not blank and
   * ToNumber reads all of it, surrounding white space aside, as a finite
   * number: a prefix that parses is not enough.
   */
  lemma {:induction false} IsNumericOnStrings(s: string)
    ensures IsNumeric(Str(s)) <==> !AllSpace(s) && StringToNumber(s).Finite?
  {
    TrimStartEmpty(s);
    TrimStartSpec(s);
    var t0 := TrimStart(s);
    var t := TrimEnd(t0);
    TrimEndSpec(t0);
    TrimEndEmpty(t0);
    if t0 != [] {
      assert !AllSpace(t0);
      assert t != [] && t[0] == t0[0];
      if LiteralToNumber(t).Finite? {
        FiniteLiteralStart(t);
        var ut := if t[0] == '+' || t[0] == '-' then t[1..] else t;
        var u0 := if t0[0] == '+' || t0[0] == '-' then t0[1..] else t0;
        assert ut <= u0;
        StartsDecimalOfPrefix(ut, u0);
      }
    }
  }

  lemma PositiveToStringStartsWithDigit(m: nat, e: int)
    requires m > 0
    ensures PositiveToString(m, e) != [] && IsDigit(PositiveToString(m, e)[0])
  {
    var r := Normalize(m, e);
    var s := DecimalString(r.0);
    assert IsDigit(s[0]);
  }

  /** On a Number, `_isNumeric` holds exactly for the finite ones. */
  lemma {:induction false} IsNumericOnNumbers(x: JsNumber)
    ensures IsNumeric(Num(x)) <==> x.Finite?
  {
    if x.Finite? && x.mantissa != 0 {
      var m := if x.mantissa < 0 then -x.mantissa else x.mantissa;
      PositiveToStringStartsWithDigit(m, x.exponent);
      var p := PositiveToString(m, x.exponent);
      var s := NumberToString(x);
      assert s[0] == '-' || s[0] == p[0];
      if x.mantissa < 0 {
        assert s[1..] == p;
      }
    }
  }

  /** `_isNumeric` rejects undefined, null and booleans: their strings do not start a number. */
  lemma IsNumericRejectsNonNumbers(b: bool)
    ensures !IsNumeric(Undefined) && !IsNumeric(Null) && !IsNumeric(Bool(b))
  {
    assert TrimStart("null") == "null";
    assert TrimStart("true") == "true";
    assert TrimStart("false") == "false";
    assert TrimStart("undefined") == "undefined";
  }

  /** `_isNumeric` rejects the empty string, NaN and both infinities. */
  lemma IsNumericRejectsEmptyAndNonFinite()
    ensures !IsNumeric(Str("")) && !IsNumeric(Num(NaN))
    ensures !IsNumeric(Num(Infinity(true))) && !IsNumeric(Num(Infinity(false)))
  {
    assert !IsNumeric(Str("")) by { assert TrimStart("") == ""; }
  }

  /** Without an exponent or a fraction, a literal is decimal exactly when it is a run of digits. */
  lemma PlainDecimal(u: string)
    requires IndexOfEither(u, 'e', 'E') == |u| && IndexOfEither(u, '.', '.') == |u|
    ensures UnsignedDecimal(u) == if u != [] && AllDigits(u) then Some((DecimalValue(u), 0)) else None
  {
    assert u[..|u|] == u;
    assert u + [] == u;
  }

  /** "12abc": parseFloat reads 12, but the whole string is not a number, so `_isNumeric` fails. */
  lemma IsNumericTrailingJunk()
    ensures !ParseFloatIsNaN("12abc") && !IsNumeric(Str("12abc"))
  {
    var s := "12abc";
    assert TrimStart(s) == s;
    assert TrimEnd(s) == s;
    assert StartsNumber(s);
    assert IndexOfEither(s, 'e', 'E') == 5;
    assert IndexOfEither(s, '.', '.') == 5;
    assert !AllDigits(s) by { assert !IsDigit(s[2]); }
    PlainDecimal(s);
  }

  lemma MinusFiveParses()
    ensures StringToNumber("-5") == Finite(-5, 0)
  {
    assert Trim("-5") == "-5";
    assert UnsignedDecimal("5") == Some((5, 0)) by {
      assert IndexOfEither("5", 'e', 'E') == 1;
      assert IndexOfEither("5", '.', '.') == 1;
      PlainDecimal("5");
    }
    assert "-5"[1..] == "5";
  }

  /** There is no sign check: a negative price, written as a string or as a number, is numeric. */
  lemma IsNumericAcceptsNegatives()
    ensures IsNumeric(Str("-5")) && IsNumeric(Num(Finite(-5, 0)))
  {
    IsNumericOnNumbers(Finite(-5, 0));
    MinusFiveParses();
  }

  // ----- route ids -----

  /**
   * The row a route's `:id` names: `req.params.id = +req.params.id`, then
   * `_isNumeric`, then `where({id})`, which matches the row whose key
   * equals that number.
   */
  function RouteKey(raw: string, keys: set<int>): Option<int> {
    var id := ToNumber(Str(raw));
    if IsNumeric(Num(id)) && IntegralValue(id).Some? && IntegralValue(id).value in keys then
      Some(IntegralValue(id).value)
    else None
  }

  lemma {:induction false} PositiveMultiple(p: int, d: int)
    requires p > 0 && d > 0
    ensures p * d >= p
    decreases d
  {
    if d > 1 {
      PositiveMultiple(p, d - 1);
      assert p * d == p * (d - 1) + p;
    }
  }

  lemma MultipleAwayFromZero(p: int, d: int)
    requires p > 0
    ensures d == 0 || p * d >= p || p * d <= -p
  {
    if d > 0 {
      PositiveMultiple(p, d);
    } else if d < 0 {
      PositiveMultiple(p, -d);
      assert p * d == -(p * -d);
    }
  }

  lemma ExactQuotient(m: int, p: int, k: int)
    requires p > 0
    ensures (m % p == 0 && m / p == k) <==> m == k * p
  {
    var q, r := m / p, m % p;
    assert m == p * q + r && 0 <= r < p;
    if m == k * p {
      assert p * (k - q) == r;
      MultipleAwayFromZero(p, k - q);
    }
  }

  lemma IntegralValueMeansEqual(x: JsNumber, k: int)
    ensures IntegralValue(x) == Some(k) <==> NumberEquals(x, Finite(k, 0))
  {
    assert Pow10(0) == 1;
    if x.Finite? && x.exponent < 0 {
      ExactQuotient(x.mantissa, Pow10(-x.exponent), k);
    }
  }

  /**
   * A route id names row k exactly when k exists and `+id` equals k: white
   * space around the id, a fraction of zeros, an exponent or a hexadecimal
   * spelling all name the same row; anything else is a 404.
   */
  lemma {:induction false} RouteKeyIff(raw: string, keys: set<int>, k: int)
    ensures RouteKey(raw, keys) == Some(k) <==> k in keys && NumberEquals(StringToNumber(raw), Finite(k, 0))
  {
    var id := StringToNumber(raw);
    assert ToNumber(Str(raw)) == id;
    IsNumericOnNumbers(id);
    IntegralValueMeansEqual(id, k);
    assert RouteKey(raw, keys) == if id.Finite? && IntegralValue(id).Some? && IntegralValue(id).value in keys then Some(IntegralValue(id).value) else None;
  }

  // ----- validation errors -----

  /** One `{field, message}` entry of a 422 body. */
  datatype FieldError = FieldError(field: string, message: string)

  /** The error a check contributes: none when it passes. */
  function Unless(passes: bool, error: FieldError): seq<FieldError> {
    if passes then [] else [error]
  }

  // ----- handler outcomes and callOn -----

  /** A thrown value: an Error instance carries `message`, a plain object `msg`; either may carry `code`. */
  datatype JsError = JsError(isErrorInstance: bool, code: JsValue, message: JsValue, msg: JsValue)

  /**
   * How a handler ends: with a value for `callOn` to send, with a response
   * it writes itself (404, 403, 422 with the error list), or by throwing.
   */
  datatype Outcome<T> = Ok(value: T) | NotFound | Forbidden | Unprocessable(errors: seq<FieldError>) | Failed(error: JsError)

  datatype Body<T> = Payload(value: T) | ErrorList(errors: seq<FieldError>) | NoBody
  datatype Response<T> = Response(status: int, body: Body<T>)

  /** What happens to a request once its handler is done: a response goes out, or the error goes to `next`. */
  datatype Dispatch<T> = Sent(response: Response<T>) | Forwarded(error: JsError)

  /**
   * `callOn(name)`: a handler that returns has its value sent with status
   * 200; one that throws or rejects has its error passed to `next` and
   * nothing is sent; the responses a handler writes itself keep their status.
   */
  method CallOn<T>(outcome: Outcome<T>) returns (d: Dispatch<T>)
    ensures d.Forwarded? <==> outcome.Failed?
    ensures d.Forwarded? ==> d.error == outcome.error
    ensures d.Sent? && d.response.status == 200 <==> outcome.Ok?
    ensures outcome.Ok? ==> d.response.body == Payload(outcome.value)
    ensures outcome.NotFound? ==> d == Sent(Response(404, NoBody))
    ensures outcome.Forbidden? ==> d == Sent(Response(403, NoBody))
    ensures outcome.Unprocessable? ==> d == Sent(Response(422, ErrorList(outcome.errors)))
  {
    match outcome
    case Ok(value) =>
      d := Sent(Response(200, Payload(value)));
    case NotFound =>
      d := Sent(Response(404, NoBody));
    case Forbidden =>
      d := Sent(Response(403, NoBody));
    case Unprocessable(errors) =>
      d := Sent(Response(422, ErrorList(errors)));
    case Failed(error) =>
      d := Forwarded(error);
  }
}

=== FILE: item_controller.dfy ===
/**
 * The item controller (app/controllers/item.controller.js): listing and
 * reading items, creating, updating and deleting them, and attaching or
 * removing an item's image. Every handler that names an item by its route
 * `:id` goes through the same chain: numeric id, existing row, owner, then
 * validation, then the write, then the re-read projection.
 *
 * The handlers are methods on the store; the signed-in user (`req.user`,
 * set by the token gate), the clock and the uploaded file are parameters.
 */
module ItemController {
  import opened Wrappers
  import opened JsValues
  import opened Patterns
  import opened Base
  import opened Store

  // ----- request shapes -----

  /**
   * The body fields a create or update request may carry. `userId` and
   * `image` are here only to show that no handler copies them.
   */
  datatype ItemBody = ItemBody(title: JsValue, price: JsValue, userId: JsValue, image: JsValue)

  /** `validItem`: a key the validator set (Some) or never set (None). */
  datatype ItemFields = ItemFields(title: Option<JsValue>, price: Option<JsValue>)

  /** The query string of `GET /api/item`. */
  datatype ItemQuery = ItemQuery(title: JsValue, userId: JsValue, orderBy: JsValue, orderType: JsValue)

  /** The `orderBy(column, direction)` the list query ends with. */
  datatype ListOrder = ListOrder(column: string, direction: string)

  /** What multer leaves in `req.files.file`; the file itself is already in the uploads set. */
  datatype UploadedFile = UploadedFile(name: string, originalName: string, size: int, extension: string)

  /** `config.file`: the size limit and the accepted extensions. */
  datatype FileConfig = FileConfig(maxSize: int, types: seq<string>)

  /** `sortableFields`. */
  const SortableFields: seq<string> := ["price", "created_at"]

  // ----- validation rules -----

  const TitleRequired := FieldError("title", "Title is required")
  const TitleTooShort := FieldError("title", "Title should contain at least 3 characters")
  const PriceRequired := FieldError("price", "Price is required")
  const WrongPrice := FieldError("price", "Wrong price")

  /** The title errors on create: presence and format are checked independently. */
  function CreateTitleErrors(title: JsValue): seq<FieldError> {
    Unless(Truthy(title), TitleRequired) + Unless(TitleExec(title), TitleTooShort)
  }

  /** The price errors on create, likewise. */
  function CreatePriceErrors(price: JsValue): seq<FieldError> {
    Unless(Truthy(price), PriceRequired) + Unless(IsNumeric(price), WrongPrice)
  }

  function CreateErrors(item: ItemBody): seq<FieldError> {
    CreateTitleErrors(item.title) + CreatePriceErrors(item.price)
  }

  /** On create a field is kept exactly when its format check passes, present or not. */
  function CreateFields(item: ItemBody): ItemFields {
    ItemFields(
      if TitleExec(item.title) then Some(item.title) else None,
      if IsNumeric(item.price) then Some(item.price) else None)
  }

  /** On update a falsy field is skipped; a truthy one is checked. */
  function UpdateErrors(item: ItemBody): seq<FieldError> {
    Unless(!Truthy(item.title) || TitleExec(item.title), TitleTooShort)
    + Unless(!Truthy(item.price) || IsNumeric(item.price), WrongPrice)
  }

  function UpdateFields(item: ItemBody): ItemFields {
    ItemFields(
      if Truthy(item.title) && TitleExec(item.title) then Some(item.title) else None,
      if Truthy(item.price) && IsNumeric(item.price) then Some(item.price) else None)
  }

  /** The row after `update(validItem)` with `updated_at` added. */
  function UpdatedItem(row: ItemRow, fields: ItemFields, now: int): ItemRow {
    row.(
      title := if fields.title.Some? then fields.title.value else row.title,
      price := if fields.price.Some? then fields.price.value else row.price,
      updatedAt := now)
  }

  // ----- validators -----

  /** `_validateItemCreate`: every check runs, errors accumulate in order. */
  method ValidateItemCreate(item: ItemBody) returns (validItem: ItemFields, errors: seq<FieldError>)
    ensures errors == CreateErrors(item)
    ensures validItem == CreateFields(item)
  {
    validItem := ItemFields(None, None);
    errors := [];
    if !Truthy(item.title) {
      errors := errors + [TitleRequired];
    }
    if !TitleExec(item.title) {
      errors := errors + [TitleTooShort];
    } else {
      validItem := validItem.(title := Some(item.title));
    }
    assert errors == CreateTitleErrors(item.title);
    ghost var titleErrors := errors;
    if !Truthy(item.price) {
      errors := errors + [PriceRequired];
    }
    if !IsNumeric(item.price) {
      errors := errors + [WrongPrice];
    } else {
      validItem := validItem.(price := Some(item.price));
    }
    assert errors == titleErrors + CreatePriceErrors(item.price);
  }

  /** `_validateItemUpdate`. */
  method ValidateItemUpdate(item: ItemBody) returns (validItem: ItemFields, errors: seq<FieldError>)
    ensures errors == UpdateErrors(item)
    ensures validItem == UpdateFields(item)
  {
    validItem := ItemFields(None, None);
    errors := [];
    if Truthy(item.title) && !TitleExec(item.title) {
      errors := errors + [TitleTooShort];
    } else if Truthy(item.title) {
      validItem := validItem.(title := Some(item.title));
    }
    if Truthy(item.price) && !IsNumeric(item.price) {
      errors := errors + [WrongPrice];
    } else if Truthy(item.price) {
      validItem := validItem.(price := Some(item.price));
    }
  }

  // ----- properties of the validation rules -----

  /** A create passes exactly when both fields are present and well formed. */
  lemma CreateAcceptsIff(item: ItemBody)
    ensures CreateErrors(item) == [] <==>
      Truthy(item.title) && TitleExec(item.title) && Truthy(item.price) && IsNumeric(item.price)
    ensures CreateErrors(item) == [] ==> CreateFields(item) == ItemFields(Some(item.title), Some(item.price))
  {
  }

  /** The title errors come first, then the price errors; each list names only its own field. */
  lemma CreateErrorsByField(item: ItemBody)
    ensures forall e | e in CreateTitleErrors(item.title) :: e.field == "title"
    ensures forall e | e in CreatePriceErrors(item.price) :: e.field == "price"
    ensures |CreateErrors(item)| <= 4
  {
  }

  /**
   * A missing title is tested by the format check as the text "undefined",
   * which passes: only "Title is required" is reported, and `validItem`
   * still gets the key `title`.
   */
  lemma MissingTitleOnlyRequired()
    ensures CreateTitleErrors(Undefined) == [TitleRequired]
    ensures CreateFields(ItemBody(Undefined, Undefined, Undefined, Undefined)).title == Some(Undefined)
  {
    MissingFieldPassesTitleAndName();
  }

  /** An empty title fails both checks. */
  lemma EmptyTitleBothErrors()
    ensures CreateTitleErrors(Str("")) == [TitleRequired, TitleTooShort]
  {
  }

  /** An absent price fails both checks. */
  lemma MissingPriceBothErrors()
    ensures CreatePriceErrors(Undefined) == [PriceRequired, WrongPrice]
  {
    IsNumericRejectsNonNumbers(false);
  }

  /** A JSON 0 is numeric but falsy: only "Price is required". */
  lemma ZeroPriceOnlyRequired()
    ensures CreatePriceErrors(Num(Finite(0, 0))) == [PriceRequired]
  {
    IsNumericOnNumbers(Finite(0, 0));
  }

  /** There is no sign check: a negative price passes, as a string or as a number. */
  lemma NegativePriceAccepted()
    ensures CreatePriceErrors(Str("-5")) == [] && CreatePriceErrors(Num(Finite(-5, 0))) == []
  {
    IsNumericAcceptsNegatives();
  }

  /** On update a falsy field is neither reported nor kept; a truthy one is kept exactly when it passes. */
  lemma UpdateSkipsFalsy(item: ItemBody)
    ensures UpdateErrors(item) == [] <==>
      (Truthy(item.title) ==> TitleExec(item.title)) && (Truthy(item.price) ==> IsNumeric(item.price))
    ensures !Truthy(item.title) ==> UpdateFields(item).title == None
    ensures !Truthy(item.price) ==> UpdateFields(item).price == None
    ensures UpdateErrors(item) == [] ==>
      (UpdateFields(item).title.Some? <==> Truthy(item.title)) && (UpdateFields(item).price.Some? <==> Truthy(item.price))
  {
  }

  /**
   * The update always writes: even with nothing to change, `updated_at`
   * moves to the current time and nothing else changes.
   */
  lemma EmptyUpdateTouchesTimestamp(row: ItemRow, now: int)
    ensures UpdatedItem(row, ItemFields(None, None), now) == row.(updatedAt := now)
    ensures now != row.updatedAt ==> UpdatedItem(row, ItemFields(None, None), now) != row
  {
  }

  // ----- list and read -----

  /** The column getItems sorts by: `order_by` when it is one of the sortable fields. */
  function OrderColumn(orderBy: JsValue): string {
    var requested := if orderBy == Undefined then Str("created_at") else orderBy;
    if requested.Str? && requested.s in SortableFields then requested.s else "created_at"
  }

  /** `order_type` stays 'desc' (its default) only when it is 'desc'. */
  function OrderDirection(orderType: JsValue): string {
    var requested := if orderType == Undefined then Str("desc") else orderType;
    if requested == Str("desc") then "desc" else "asc"
  }

  /** Whether a row passes the list filters: title containment, and the owner when `user_id` is usable. */
  predicate Listed(row: ItemRow, query: ItemQuery) {
    var title := if query.title == Undefined then "" else ToStr(query.title);
    && LikeContains(row.title, title)
    && (Truthy(query.userId) && IsNumeric(query.userId) ==> IntegralValue(ToNumber(query.userId)) == Some(row.userId))
  }

  lemma ListOrderNormalised(query: ItemQuery)
    ensures OrderColumn(query.orderBy) in SortableFields
    ensures OrderColumn(query.orderBy) == "price" <==> query.orderBy == Str("price")
    ensures OrderDirection(query.orderType) in ["desc", "asc"]
    ensures OrderDirection(query.orderType) == "desc" <==> query.orderType in {Undefined, Str("desc")}
  {
  }

  /** `getItems`: the normalised order, and the projections of exactly the listed rows. */
  method GetItems(db: Db, query: ItemQuery) returns (order: ListOrder, rows: set<ItemView>)
    ensures order == ListOrder(OrderColumn(query.orderBy), OrderDirection(query.orderType))
    ensures forall id | id in db.items :: ItemProjection(id, db.items[id]) in rows <==> Listed(db.items[id], query)
    ensures forall v | v in rows :: v.id in db.items && v == ItemProjection(v.id, db.items[v.id])
  {
    order := ListOrder(OrderColumn(query.orderBy), OrderDirection(query.orderType));
    rows := set id | id in db.items && Listed(db.items[id], query) :: ItemProjection(id, db.items[id]);
  }

  /** `getItem`: the row's projection, or 404 when the id is not numeric or names no row. */
  method GetItem(db: Db, rawId: string) returns (outcome: Outcome<ItemView>)
    ensures RouteKey(rawId, db.items.Keys).None? ==> outcome == NotFound
    ensures RouteKey(rawId, db.items.Keys).Some? ==>
      var id := RouteKey(rawId, db.items.Keys).value;
      id in db.items && outcome == Ok(ItemProjection(id, db.items[id]))
  {
    var key := RouteKey(rawId, db.items.Keys);
    if key.None? {
      return NotFound;
    }
    outcome := Ok(ItemProjection(key.value, db.items[key.value]));
  }

  // ----- create, update, delete -----

  /**
   * `createItem`: nothing is written when validation fails; otherwise one
   * row holding the validated title and price, the signed-in user as owner,
   * no image and the two clock readings.
   */
  method CreateItem(db: Db, user: UserView, item: ItemBody, createdAt: int, updatedAt: int)
    returns (outcome: Outcome<ItemView>)
    requires db.Valid()
    modifies db
    ensures db.Valid()
    ensures db.users == old(db.users) && db.files == old(db.files) && db.nextUserId == old(db.nextUserId)
    ensures CreateErrors(item) != [] ==>
      outcome == Unprocessable(CreateErrors(item)) && db.items == old(db.items) && db.nextItemId == old(db.nextItemId)
    ensures CreateErrors(item) == [] ==>
      var id := old(db.nextItemId);
      var row := ItemRow(item.title, item.price, None, user.id, createdAt, updatedAt);
      && id !in old(db.items) && db.items == old(db.items)[id := row] && db.nextItemId == id + 1
      && outcome == Ok(ItemProjection(id, row))
  {
    var validItem, errors := ValidateItemCreate(item);
    if errors != [] {
      return Unprocessable(errors);
    }
    CreateAcceptsIff(item);
    var row := ItemRow(validItem.title.value, validItem.price.value, None, user.id, createdAt, updatedAt);
    var id := db.InsertItem(row);
    outcome := Ok(ItemProjection(id, db.items[id]));
  }

  /** The row the signed-in user may change, or the 404 or 403 that stops the handler. */
  function Owned(items: map<int, ItemRow>, user: UserView, rawId: string): Outcome<int> {
    var key := RouteKey(rawId, items.Keys);
    if key.None? then NotFound
    else if items[key.value].userId != user.id then Forbidden
    else Ok(key.value)
  }

  lemma OwnedIff(items: map<int, ItemRow>, user: UserView, rawId: string, id: int)
    ensures Owned(items, user, rawId) == Ok(id) <==>
      id in items && NumberEquals(StringToNumber(rawId), Finite(id, 0)) && items[id].userId == user.id
    ensures Owned(items, user, rawId).NotFound? || Owned(items, user, rawId).Forbidden? || Owned(items, user, rawId).Ok?
  {
    RouteKeyIff(rawId, items.Keys, id);
  }

  /**
   * `updateItem`: 404, 403 and 422 change nothing; otherwise the row gets
   * the validated fields and the new `updated_at`, and its projection is
   * returned.
   */
  method UpdateItem(db: Db, user: UserView, rawId: string, item: ItemBody, now: int)
    returns (outcome: Outcome<ItemView>)
    requires db.Valid()
    modifies db
    ensures db.Valid()
    ensures db.users == old(db.users) && db.files == old(db.files)
    ensures db.nextUserId == old(db.nextUserId) && db.nextItemId == old(db.nextItemId)
    ensures var owned := Owned(old(db.items), user, rawId);
      && (owned.NotFound? ==> outcome == NotFound && db.items == old(db.items))
      && (owned.Forbidden? ==> outcome == Forbidden && db.items == old(db.items))
      && (owned.Ok? && UpdateErrors(item) != [] ==>
            outcome == Unprocessable(UpdateErrors(item)) && db.items == old(db.items))
      && (owned.Ok? && UpdateErrors(item) == [] ==>
            var row := UpdatedItem(old(db.items)[owned.value], UpdateFields(item), now);
            db.items == old(db.items)[owned.value := row] && outcome == Ok(ItemProjection(owned.value, row)))
  {
    var owned := Owned(db.items, user, rawId);
    if !owned.Ok? {
      return if owned.NotFound? then NotFound else Forbidden;
    }
    var id := owned.value;
    var validItem, errors := ValidateItemUpdate(item);
    if errors != [] {
      return Unprocessable(errors);
    }
    var row := UpdatedItem(db.items[id], validItem, now);
    db.PutItem(id, row);
    outcome := Ok(ItemProjection(id, db.items[id]));
  }

  /** `removeItem`: deletes exactly the owned row; its image file stays in the uploads. */
  method RemoveItem(db: Db, user: UserView, rawId: string) returns (outcome: Outcome<()>)
    requires db.Valid()
    modifies db
    ensures db.Valid()
    ensures db.users == old(db.users) && db.files == old(db.files)
    ensures db.nextUserId == old(db.nextUserId) && db.nextItemId == old(db.nextItemId)
    ensures var owned := Owned(old(db.items), user, rawId);
      && (owned.NotFound? ==> outcome == NotFound && db.items == old(db.items))
      && (owned.Forbidden? ==> outcome == Forbidden && db.items == old(db.items))
      && (owned.Ok? ==> outcome == Ok(()) && db.items == old(db.items) - {owned.value})
  {
    var owned := Owned(db.items, user, rawId);
    if !owned.Ok? {
      return if owned.NotFound? then NotFound else Forbidden;
    }
    db.DeleteItem(owned.value);
    outcome := Ok(());
  }

  // ----- images -----

  /**
   * Reading `req.files.file.size` when no file was uploaded, with `req.files`
   * an empty object: the TypeError in the wording of V8 before Node 16 (later
   * versions say "Cannot read properties of undefined (reading 'size')").
   */
  const MissingFileError := JsError(true, Undefined, Str("Cannot read property 'size' of undefined"), Undefined)

  function TooBig(file: UploadedFile): FieldError {
    FieldError("file", "The file '" + file.originalName + "' is too big")
  }

  const WrongFileType := FieldError("file", "Wrong file type")

  /**
   * `uploadImage`: size, then extension, then id, then owner. Every
   * rejection removes the new upload and changes nothing else; on success
   * the previous image file is removed if it exists, and the row points at
   * the new file.
   */
  method UploadImage(db: Db, user: UserView, rawId: string, file: Option<UploadedFile>, config: FileConfig, now: int)
    returns (outcome: Outcome<ItemView>)
    requires db.Valid()
    requires file.Some? ==> file.value.name in db.files
    modifies db
    ensures db.Valid()
    ensures db.users == old(db.users)
    ensures db.nextUserId == old(db.nextUserId) && db.nextItemId == old(db.nextItemId)
    ensures file.None? ==> outcome == Failed(MissingFileError) && db.items == old(db.items) && db.files == old(db.files)
    ensures file.Some? ==>
      var f := file.value;
      var owned := Owned(old(db.items), user, rawId);
      && (f.size >= config.maxSize ==> outcome == Unprocessable([TooBig(f)]))
      && (f.size < config.maxSize && f.extension !in config.types ==> outcome == Unprocessable([WrongFileType]))
      && (f.size < config.maxSize && f.extension in config.types ==>
            (owned.NotFound? ==> outcome == NotFound) && (owned.Forbidden? ==> outcome == Forbidden))
      && (!outcome.Ok? ==> db.items == old(db.items) && db.files == old(db.files) - {f.name})
      && (outcome.Ok? <==> f.size < config.maxSize && f.extension in config.types && owned.Ok?)
      && (outcome.Ok? ==>
            var old_row := old(db.items)[owned.value];
            var row := old_row.(image := Some(f.name), updatedAt := now);
            && db.items == old(db.items)[owned.value := row]
            && db.files == old(db.files) - {ImageFile(old_row.image)}
            && outcome == Ok(ItemProjection(owned.value, row)))
  {
    if file.None? {
      return Failed(MissingFileError);
    }
    var f := file.value;
    if f.size >= config.maxSize {
      db.Unlink(f.name);
      return Unprocessable([TooBig(f)]);
    }
    if f.extension !in config.types {
      db.Unlink(f.name);
      return Unprocessable([WrongFileType]);
    }
    var owned := Owned(db.items, user, rawId);
    if !owned.Ok? {
      db.Unlink(f.name);
      return if owned.NotFound? then NotFound else Forbidden;
    }
    var id := owned.value;
    var previous := ImageFile(db.items[id].image);
    if previous in db.files {
      db.Unlink(previous);
    }
    var row := db.items[id].(image := Some(f.name), updatedAt := now);
    db.PutItem(id, row);
    outcome := Ok(ItemProjection(id, row));
  }

  /** `removeImage`: the image file goes if it exists, and the row's image becomes NULL. */
  method RemoveImage(db: Db, user: UserView, rawId: string, now: int) returns (outcome: Outcome<()>)
    requires db.Valid()
    modifies db
    ensures db.Valid()
    ensures db.users == old(db.users)
    ensures db.nextUserId == old(db.nextUserId) && db.nextItemId == old(db.nextItemId)
    ensures var owned := Owned(old(db.items), user, rawId);
      && (owned.NotFound? ==> outcome == NotFound && db.items == old(db.items) && db.files == old(db.files))
      && (owned.Forbidden? ==> outcome == Forbidden && db.items == old(db.items) && db.files == old(db.files))
      && (owned.Ok? ==>
            var old_row := old(db.items)[owned.value];
            && outcome == Ok(())
            && db.items == old(db.items)[owned.value := old_row.(image := None, updatedAt := now)]
            && db.files == old(db.files) - {ImageFile(old_row.image)})
  {
    var owned := Owned(db.items, user, rawId);
    if !owned.Ok? {
      return if owned.NotFound? then NotFound else Forbidden;
    }
    var id := owned.value;
    var previous := ImageFile(db.items[id].image);
    if previous in db.files {
      db.Unlink(previous);
    }
    db.PutItem(id, db.items[id].(image := None, updatedAt := now));
    outcome := Ok(());
  }
}

=== FILE: js_values.dfy ===
/**
 * The JavaScript values that reach the controllers, and the conversions the
 * controllers rely on: truthiness, ToString, ToNumber, strict equality and
 * the NaN test of parseFloat, each as ECMA-262 defines it.
 *
 * A finite Number is kept as the exact decimal mantissa * 10^exponent, which
 * is what a JSON or string literal denotes; the rounding to a binary64 value
 * is not modelled.
 */
module JsValues {
  import opened Wrappers

  datatype JsNumber = Finite(mantissa: int, exponent: int) | NaN | Infinity(negative: bool)

  /** A value a request field can hold (JSON objects and arrays are not modelled). */
  datatype JsValue = Undefined | Null | Bool(b: bool) | Num(n: JsNumber) | Str(s: string)

  // ----- characters -----

  predicate IsDigit(c: char) { '0' <= c <= '9' }
  predicate IsAsciiLetter(c: char) { 'a' <= c <= 'z' || 'A' <= c <= 'Z' }
  predicate IsAsciiAlnum(c: char) { IsAsciiLetter(c) || IsDigit(c) }
  /** What `\w` matches. */
  predicate IsWordChar(c: char) { IsAsciiAlnum(c) || c == '_' }

  /**
   * WhiteSpace or LineTerminator (sections 12.2 and 12.3 of ECMA-262): the
   * set `\s` matches, and the set ToNumber and parseFloat skip.
   */
  predicate IsSpace(c: char) {
    || c == '\t' || c == '\n' || c == '\U{000B}' || c == '\U{000C}' || c == '\r'
    || c == ' ' || c == '\U{00A0}' || c == '\U{1680}' || '\U{2000}' <= c <= '\U{200A}'
    || c == '\U{2028}' || c == '\U{2029}' || c == '\U{202F}' || c == '\U{205F}'
    || c == '\U{3000}' || c == '\U{FEFF}'
  }

  predicate AllSpace(s: string) { forall i | 0 <= i < |s| :: IsSpace(s[i]) }
  predicate AllDigits(s: string) { forall i | 0 <= i < |s| :: IsDigit(s[i]) }

  /** s without its leading white space. */
  function TrimStart(s: string): string {
    if s != [] && IsSpace(s[0]) then TrimStart(s[1..]) else s
  }

  /** s without its trailing white space. */
  function TrimEnd(s: string): string {
    if s != [] && IsSpace(s[|s| - 1]) then TrimEnd(s[..|s| - 1]) else s
  }

  function Trim(s: string): string { TrimEnd(TrimStart(s)) }

  /** TrimStart drops exactly the leading white space. */
  lemma {:induction false} TrimStartSpec(s: string)
    ensures |TrimStart(s)| <= |s| && TrimStart(s) == s[|s| - |TrimStart(s)|..]
    ensures AllSpace(s[..|s| - |TrimStart(s)|])
    ensures TrimStart(s) == [] || !IsSpace(TrimStart(s)[0])
  {
    if s != [] && IsSpace(s[0]) {
      TrimStartSpec(s[1..]);
      var t := TrimStart(s);
      assert s[..|s| - |t|] == [s[0]] + s[1..][..|s| - 1 - |t|];
    }
  }

  /** TrimEnd drops exactly the trailing white space. */
  lemma {:induction false} TrimEndSpec(s: string)
    ensures |TrimEnd(s)| <= |s| && TrimEnd(s) == s[..|TrimEnd(s)|]
    ensures AllSpace(s[|TrimEnd(s)|..])
    ensures TrimEnd(s) == [] || !IsSpace(TrimEnd(s)[|TrimEnd(s)| - 1])
  {
    if s != [] && IsSpace(s[|s| - 1]) {
      TrimEndSpec(s[..|s| - 1]);
      var t := TrimEnd(s);
      assert s[|t|..] == s[..|s| - 1][|t|..] + [s[|s| - 1]];
    }
  }

  /** The first index holding a or b, or |s|. */
  function IndexOfEither(s: string, a: char, b: char): (i: nat)
    ensures i <= |s|
  {
    if s == [] || s[0] == a || s[0] == b then 0 else 1 + IndexOfEither(s[1..], a, b)
  }

  lemma {:induction false} IndexOfEitherSpec(s: string, a: char, b: char)
    ensures var i := IndexOfEither(s, a, b);
      && (i < |s| ==> s[i] == a || s[i] == b)
      && forall j | 0 <= j < i :: s[j] != a && s[j] != b
  {
    if s != [] && s[0] != a && s[0] != b {
      IndexOfEitherSpec(s[1..], a, b);
    }
  }

  // ----- digits -----

  /** The value of c as a digit in radixes up to 36, or 36 when c is no digit at all. */
  function RadixDigit(c: char): nat {
    if IsDigit(c) then c as int - '0' as int
    else if 'a' <= c <= 'z' then c as int - 'a' as int + 10
    else if 'A' <= c <= 'Z' then c as int - 'A' as int + 10
    else 36
  }

  predicate AllRadixDigits(s: string, radix: nat) { forall i | 0 <= i < |s| :: RadixDigit(s[i]) < radix }

  function RadixValue(s: string, radix: nat): nat
    requires AllRadixDigits(s, radix)
  {
    if s == [] then 0 else radix * RadixValue(s[..|s| - 1], radix) + RadixDigit(s[|s| - 1])
  }

  function DecimalValue(s: string): nat
    requires AllDigits(s)
  {
    RadixValue(s, 10)
  }

  function Pow10(k: nat): (r: nat)
    ensures r >= 1
  {
    if k == 0 then 1 else 10 * Pow10(k - 1)
  }

  function DigitChar(d: nat): (c: char)
    requires d < 10
    ensures IsDigit(c)
  {
    ('0' as int + d) as char
  }

  /** The decimal numeral of n, without leading zeros. */
  function DecimalString(n: nat): (s: string)
    ensures s != [] && AllDigits(s)
  {
    if n < 10 then [DigitChar(n)] else DecimalString(n / 10) + [DigitChar(n % 10)]
  }

  function Zeros(n: nat): (s: string)
    ensures |s| == n && AllDigits(s)
  {
    seq(n, _ => '0')
  }

  // ----- ToNumber -----

  /** The radix selected by the letter after a leading 0 (`0x`, `0o`, `0b`), or 0. */
  function PrefixRadix(c: char): nat {
    if c == 'x' || c == 'X' then 16
    else if c == 'o' || c == 'O' then 8
    else if c == 'b' || c == 'B' then 2
    else 0
  }

  /** An ExponentPart's integer: an optional sign and at least one digit. */
  function SignedInteger(s: string): Option<int> {
    var digits := if s != [] && (s[0] == '+' || s[0] == '-') then s[1..] else s;
    if digits != [] && AllDigits(digits) then
      var magnitude: int := DecimalValue(digits);
      Some(if s[0] == '-' then -magnitude else magnitude)
    else None
  }

  /**
   * A StrUnsignedDecimalLiteral other than Infinity, as (mantissa, exponent):
   * digits, an optional fraction, an optional exponent, at least one digit
   * before the exponent.
   */
  function UnsignedDecimal(u: string): Option<(nat, int)> {
    var i := IndexOfEither(u, 'e', 'E');
    var mantissa := u[..i];
    var exponent := if i < |u| then SignedInteger(u[i + 1..]) else Some(0);
    // the first '.', named as both alternatives: one search function serves both splits
    var d := IndexOfEither(mantissa, '.', '.');
    var whole := mantissa[..d];
    var fraction := if d < |mantissa| then mantissa[d + 1..] else [];
    if exponent.Some? && AllDigits(whole) && AllDigits(fraction) && |whole| + |fraction| > 0 then
      assert AllDigits(whole + fraction);
      Some((DecimalValue(whole + fraction), exponent.value - |fraction|))
    else None
  }

  /** StringToNumber (section 7.1.4.1.1 of ECMA-262): what `+s` and Number(s) give. */
  function StringToNumber(s: string): JsNumber {
    LiteralToNumber(Trim(s))
  }

  /** The value of a StrNumericLiteral already stripped of surrounding white space. */
  function LiteralToNumber(t: string): JsNumber {
    if t == [] then Finite(0, 0)
    else if |t| >= 2 && t[0] == '0' && PrefixRadix(t[1]) != 0 then NonDecimalToNumber(t[2..], PrefixRadix(t[1]))
    else DecimalToNumber(t)
  }

  /** The digits of a `0x`, `0o` or `0b` literal. */
  function NonDecimalToNumber(digits: string, radix: nat): JsNumber {
    if digits != [] && AllRadixDigits(digits, radix) then Finite(RadixValue(digits, radix), 0) else NaN
  }

  /** A StrDecimalLiteral: an optional sign, then Infinity or an unsigned decimal. */
  function DecimalToNumber(t: string): JsNumber
    requires t != []
  {
    var negative := t[0] == '-';
    var u := if t[0] == '-' || t[0] == '+' then t[1..] else t;
    if u == "Infinity" then Infinity(negative)
    else
      var d := UnsignedDecimal(u);
      if d.None? then NaN
      else
        var m: int := d.value.0;
        Finite(if negative then -m else m, d.value.1)
  }

  /** ToNumber (section 7.1.4 of ECMA-262). */
  function ToNumber(v: JsValue): JsNumber {
    match v
    case Undefined => NaN
    case Null => Finite(0, 0)
    case Bool(b) => Finite(if b then 1 else 0, 0)
    case Num(n) => n
    case Str(s) => StringToNumber(s)
  }

  /**
   * parseFloat(s) is NaN (section 19.2.4 of ECMA-262): once leading white
   * space is skipped, no prefix is a StrDecimalLiteral, that is, what
   * follows an optional sign is neither a digit, nor a dot and a digit, nor
   * "Infinity".
   */
  predicate ParseFloatIsNaN(s: string) {
    !StartsNumber(TrimStart(s))
  }

  /** After an optional sign: a digit, a dot and a digit, or "Infinity". */
  predicate StartsNumber(t: string) {
    var u := if t != [] && (t[0] == '+' || t[0] == '-') then t[1..] else t;
    StartsDecimal(u) || (|u| >= 8 && u[..8] == "Infinity")
  }

  /** A digit, or a dot and a digit. */
  predicate StartsDecimal(u: string) {
    (u != [] && IsDigit(u[0])) || (|u| >= 2 && u[0] == '.' && IsDigit(u[1]))
  }

  // ----- ToString -----

  /** m * 10^e with the trailing zeros of m moved into the exponent. */
  function Normalize(m: nat, e: int): (r: (nat, int))
    requires m > 0
    ensures r.0 > 0
  {
    if m % 10 == 0 then Normalize(m / 10, e + 1) else (m, e)
  }

  /** Number::toString (section 6.1.6.1.20 of ECMA-262) of the positive number m * 10^e. */
  function PositiveToString(m: nat, e: int): string
    requires m > 0
  {
    var r := Normalize(m, e);
    var s := DecimalString(r.0);
    var k := |s|;
    var n := k + r.1;
    if k <= n <= 21 then s + Zeros(n - k)
    else if 0 < n <= 21 then s[..n] + "." + s[n..]
    else if -6 < n <= 0 then "0." + Zeros(-n) + s
    else
      var exponent := "e" + (if n - 1 >= 0 then "+" else "-") + DecimalString(if n - 1 >= 0 then n - 1 else 1 - n);
      if k == 1 then s + exponent else s[..1] + "." + s[1..] + exponent
  }

  function NumberToString(x: JsNumber): string {
    match x
    case NaN => "NaN"
    case Infinity(negative) => if negative then "-Infinity" else "Infinity"
    case Finite(m, e) =>
      if m == 0 then "0"
      else if m < 0 then "-" + PositiveToString(-m, e)
      else PositiveToString(m, e)
  }

  /** ToString (section 7.1.17 of ECMA-262); also what a template literal and RegExp.prototype.exec apply. */
  function ToStr(v: JsValue): string {
    match v
    case Undefined => "undefined"
    case Null => "null"
    case Bool(b) => if b then "true" else "false"
    case Num(n) => NumberToString(n)
    case Str(s) => s
  }

  // ----- truthiness and equality -----

  /** ToBoolean (section 7.1.2 of ECMA-262). */
  predicate Truthy(v: JsValue) {
    match v
    case Undefined => false
    case Null => false
    case Bool(b) => b
    case Num(n) => (n.Finite? && n.mantissa != 0) || n.Infinity?
    case Str(s) => s != []
  }

  predicate NumberEquals(x: JsNumber, y: JsNumber) {
    match (x, y)
    case (Finite(m1, e1), Finite(m2, e2)) =>
      var e := if e1 <= e2 then e1 else e2;
      m1 * Pow10(e1 - e) == m2 * Pow10(e2 - e)
    case (Infinity(n1), Infinity(n2)) => n1 == n2
    case _ => false
  }

  /** `===` (IsStrictlyEqual, section 7.2.15 of ECMA-262). */
  predicate StrictEquals(a: JsValue, b: JsValue) {
    if a.Num? && b.Num? then NumberEquals(a.n, b.n) else a == b
  }

  /** The integer a Number denotes, if it denotes one. */
  function IntegralValue(x: JsNumber): Option<int> {
    match x
    case Finite(m, e) =>
      if e >= 0 then Some(m * Pow10(e))
      else if m % Pow10(-e) == 0 then Some(m / Pow10(-e))
      else None
    case _ => None
  }
}

=== FILE: patterns.dfy ===
/**
 * The five regular expressions the controllers validate with, each written
 * as a predicate on the text it matches (none of them has a flag, so `$`
 * anchors at the very end and `\s` is the white space of ECMA-262):
 *
 *   titleRegex     app/controllers/item.controller.js:16
 *   emailRegex     app/controllers/user.controller.js:13
 *   passwordRegex  app/controllers/user.controller.js:14
 *   phoneRegex     app/controllers/user.controller.js:15
 *   nameRegex      app/controllers/user.controller.js:16
 *
 * `regex.exec(v)` converts v with ToString first, so the `...Exec`
 * predicates take any JsValue: a missing field is tested as the text
 * "undefined".
 */
module Patterns {
  import opened JsValues

  // ----- title and name -----

  /** At least three ASCII letters or digits, then letters, digits or white space. */
  predicate TitlePattern(s: string) {
    && |s| >= 3
    && (forall i | 0 <= i < 3 :: IsAsciiAlnum(s[i]))
    && (forall i | 3 <= i < |s| :: IsAsciiAlnum(s[i]) || IsSpace(s[i]))
  }

  /** At least three ASCII letters, then letters or white space. */
  predicate NamePattern(s: string) {
    && |s| >= 3
    && (forall i | 0 <= i < 3 :: IsAsciiLetter(s[i]))
    && (forall i | 3 <= i < |s| :: IsAsciiLetter(s[i]) || IsSpace(s[i]))
  }

  // ----- phone -----

  /** `+380` and exactly nine digits. */
  predicate PhonePattern(s: string) {
    |s| == 13 && s[..4] == "+380" && AllDigits(s[4..])
  }

  // ----- password -----

  /** Eight or more ASCII letters and digits, with at least one letter and one digit. */
  predicate PasswordPattern(s: string) {
    && |s| >= 8
    && (forall i | 0 <= i < |s| :: IsAsciiAlnum(s[i]))
    && (exists i | 0 <= i < |s| :: IsAsciiLetter(s[i]))
    && (exists i | 0 <= i < |s| :: IsDigit(s[i]))
  }

  // ----- email -----

  /** `[\w\-\+_]`: the characters of one dot-separated run. */
  predicate IsAtomChar(c: char) { IsWordChar(c) || c == '-' || c == '+' }

  /**
   * One or more non-empty runs of atom characters separated by single dots:
   * `[\w\-\+_]+(\.[\w\-\+_]+)*`.
   */
  predicate DotAtoms(s: string) {
    && s != []
    && IsAtomChar(s[0])
    && IsAtomChar(s[|s| - 1])
    && forall i | 0 <= i < |s| :: IsAtomChar(s[i]) || (s[i] == '.' && i + 1 < |s| && IsAtomChar(s[i + 1]))
  }

  /** A local part, `@`, and a domain of at least two runs; no white space around. */
  predicate EmailCore(t: string) {
    exists i | 0 <= i < |t| :: t[i] == '@' && DotAtoms(t[..i]) && DotAtoms(t[i + 1..]) && '.' in t[i + 1..]
  }

  /**
   * The whole email expression: the address may be surrounded by white
   * space, which the atoms cannot contain, so stripping it first is the
   * same as letting `\s*` absorb it.
   */
  predicate EmailPattern(s: string) {
    EmailCore(Trim(s))
  }

  // ----- exec on a JS value -----

  predicate TitleExec(v: JsValue) { TitlePattern(ToStr(v)) }
  predicate NameExec(v: JsValue) { NamePattern(ToStr(v)) }
  predicate PhoneExec(v: JsValue) { PhonePattern(ToStr(v)) }
  predicate PasswordExec(v: JsValue) { PasswordPattern(ToStr(v)) }
  predicate EmailExec(v: JsValue) { EmailPattern(ToStr(v)) }

  // ----- properties -----

  /**
   * exec(undefined) tests "undefined": nine letters, so the title and the
   * name expressions accept a missing field.
   */
  lemma MissingFieldPassesTitleAndName()
    ensures TitleExec(Undefined) && NameExec(Undefined)
  {
    var s := "undefined";
    assert forall i | 0 <= i < |s| :: IsAsciiLetter(s[i]);
  }

  /** ...while the email, password and phone expressions reject it. */
  lemma MissingFieldFailsEmailPasswordPhone()
    ensures !EmailExec(Undefined) && !PasswordExec(Undefined) && !PhoneExec(Undefined)
  {
    var s := "undefined";
    assert Trim(s) == s by {
      assert TrimStart(s) == s;
      assert TrimEnd(s) == s;
    }
    assert !(exists i | 0 <= i < |s| :: IsDigit(s[i]));
    assert '@' !in s;
  }

  /** Every accepted title or name is non-empty, hence truthy as a string. */
  lemma TitleAndNameNonEmpty(s: string)
    ensures TitlePattern(s) ==> s != [] && IsAsciiAlnum(s[0])
    ensures NamePattern(s) ==> s != [] && IsAsciiLetter(s[0])
  {
  }

  lemma PasswordExamples()
    ensures PasswordPattern("passw0rd")
    ensures !PasswordPattern("password") && !PasswordPattern("12345678") && !PasswordPattern("pass0rd")
  {
    var good := "passw0rd";
    assert IsAsciiLetter(good[0]) && IsDigit(good[5]);
    var letters := "password";
    assert forall i | 0 <= i < |letters| :: !IsDigit(letters[i]);
    var digits := "12345678";
    assert forall i | 0 <= i < |digits| :: !IsAsciiLetter(digits[i]);
  }

  /** A password needs eight characters and both a letter and a digit: one class alone never passes. */
  lemma PasswordNeedsBothClasses(s: string)
    ensures |s| < 8 ==> !PasswordPattern(s)
    ensures (forall i | 0 <= i < |s| :: IsAsciiLetter(s[i])) ==> !PasswordPattern(s)
    ensures (forall i | 0 <= i < |s| :: IsDigit(s[i])) ==> !PasswordPattern(s)
  {
  }

  /** A space or punctuation anywhere in a password rejects it. */
  lemma PasswordRejectsSymbols(s: string, i: int)
    requires 0 <= i < |s| && !IsAsciiAlnum(s[i])
    ensures !PasswordPattern(s)
  {
  }

  /** The phone expression character by character: `+`, `3`, `8`, `0`, then nine digits and nothing more. */
  lemma PhoneShape(s: string)
    ensures PhonePattern(s) <==>
      && |s| == 13 && s[0] == '+' && s[1] == '3' && s[2] == '8' && s[3] == '0'
      && forall i | 4 <= i < 13 :: IsDigit(s[i])
  {
    if |s| == 13 {
      assert s[..4] == [s[0], s[1], s[2], s[3]];
      assert forall i | 4 <= i < 13 :: s[i] == s[4..][i - 4];
    }
  }

  lemma PhoneExamples()
    ensures PhonePattern("+380501234567")
    ensures !PhonePattern("380501234567") && !PhonePattern("+38050123456") && !PhonePattern("+3805012345678")
  {
    var s := "+380501234567";
    assert s[..4] == "+380";
    assert forall i | 0 <= i < |s[4..]| :: IsDigit(s[4..][i]);
  }

  lemma AtomCharNotSpace(c: char)
    requires IsAtomChar(c) || c == '.'
    ensures !IsSpace(c) && c != '@'
  {
  }

  /** Dot-separated runs hold neither white space nor `@`. */
  lemma DotAtomsChars(s: string)
    requires DotAtoms(s)
    ensures forall j | 0 <= j < |s| :: !IsSpace(s[j]) && s[j] != '@'
  {
    forall j | 0 <= j < |s|
      ensures !IsSpace(s[j]) && s[j] != '@'
    {
      AtomCharNotSpace(s[j]);
    }
  }

  /**
   * What an accepted address looks like once trimmed: no white space
   * anywhere in it and exactly one `@`.
   */
  lemma EmailCoreShape(t: string)
    requires EmailCore(t)
    ensures forall j | 0 <= j < |t| :: !IsSpace(t[j])
    ensures exists i | 0 <= i < |t| :: t[i] == '@' && forall j | 0 <= j < |t| && j != i :: t[j] != '@'
  {
    var i :| 0 <= i < |t| && t[i] == '@' && DotAtoms(t[..i]) && DotAtoms(t[i + 1..]) && '.' in t[i + 1..];
    var local, domain := t[..i], t[i + 1..];
    DotAtomsChars(local);
    DotAtomsChars(domain);
    forall j | 0 <= j < |t| && j != i
      ensures t[j] != '@' && !IsSpace(t[j])
    {
      if j < i {
        assert t[j] == local[j];
      } else {
        assert t[j] == domain[j - i - 1];
      }
    }
  }

  /** White space in front of an address changes nothing. */
  lemma EmailIgnoresLeadingSpace(c: char, s: string)
    requires IsSpace(c)
    ensures EmailPattern([c] + s) <==> EmailPattern(s)
  {
    assert ([c] + s)[1..] == s;
  }

  /** White space inside an address rejects it. */
  lemma EmailRejectsInnerSpace(a: string, c: char, b: string)
    requires IsSpace(c) && !AllSpace(a) && !AllSpace(b)
    ensures !EmailPattern(a + [c] + b)
  {
    var s := a + [c] + b;
    var t := Trim(s);
    TrimStartSpec(s);
    TrimEndSpec(TrimStart(s));
    var lead := |s| - |TrimStart(s)|;
    var ia :| 0 <= ia < |a| && !IsSpace(a[ia]);
    var ib :| 0 <= ib < |b| && !IsSpace(b[ib]);
    assert s[ia] == a[ia] && s[|a| + 1 + ib] == b[ib];
    assert forall j | 0 <= j < lead :: IsSpace(s[j]) by {
      forall j | 0 <= j < lead
        ensures IsSpace(s[j])
      {
        assert s[..lead][j] == s[j];
      }
    }
    assert forall j | lead + |t| <= j < |s| :: IsSpace(s[j]) by {
      forall j | lead + |t| <= j < |s|
        ensures IsSpace(s[j])
      {
        assert TrimStart(s)[|t|..][j - lead - |t|] == s[j];
      }
    }
    assert t[|a| - lead] == s[|a|] == c;
    if EmailCore(t) {
      EmailCoreShape(t);
    }
  }

  /** A run of atom characters is one run. */
  lemma SingleAtom(a: string)
    requires a != [] && forall j | 0 <= j < |a| :: IsAtomChar(a[j])
    ensures DotAtoms(a)
  {
  }

  /** Two sequences of runs joined by a dot are again a sequence of runs. */
  lemma JoinAtoms(a: string, b: string)
    requires DotAtoms(a) && DotAtoms(b)
    ensures DotAtoms(a + "." + b) && '.' in a + "." + b
  {
    var s := a + "." + b;
    assert s[|a|] == '.';
    forall j | 0 <= j < |s|
      ensures IsAtomChar(s[j]) || (s[j] == '.' && j + 1 < |s| && IsAtomChar(s[j + 1]))
    {
      if j < |a| {
        assert s[j] == a[j];
        if j + 1 < |a| { assert s[j + 1] == a[j + 1]; }
      } else if j > |a| {
        assert s[j] == b[j - |a| - 1];
        if j + 1 < |s| { assert s[j + 1] == b[j - |a|]; }
      } else {
        assert s[j + 1] == b[0];
      }
    }
  }

  /** A local part, `@` and a dotted domain make an address. */
  lemma EmailCoreIntro(local: string, domain: string)
    requires DotAtoms(local) && DotAtoms(domain) && '.' in domain
    ensures EmailCore(local + "@" + domain)
  {
    var t := local + "@" + domain;
    assert t[..|local|] == local && t[|local| + 1..] == domain;
    assert t[|local|] == '@';
  }

  /**
   * Every address of the form local@host.tld, each part a non-empty run of
   * atom characters, is accepted: the trimming finds nothing to strip.
   */
  lemma EmailAcceptsSimpleAddress(local: string, host: string, tld: string)
    requires local != [] && forall j | 0 <= j < |local| :: IsAtomChar(local[j])
    requires host != [] && forall j | 0 <= j < |host| :: IsAtomChar(host[j])
    requires tld != [] && forall j | 0 <= j < |tld| :: IsAtomChar(tld[j])
    ensures EmailPattern(local + "@" + host + "." + tld)
  {
    SingleAtom(local);
    SingleAtom(host);
    SingleAtom(tld);
    JoinAtoms(host, tld);
    EmailCoreIntro(local, host + "." + tld);
    var t := local + "@" + host + "." + tld;
    assert t == local + "@" + (host + "." + tld);
    AtomCharNotSpace(t[0]);
    assert t[|t| - 1] == tld[|tld| - 1];
    AtomCharNotSpace(t[|t| - 1]);
    assert TrimStart(t) == t;
    assert TrimEnd(t) == t;
  }

  /** An ordinary address, jane@mail.com, is accepted. */
  lemma EmailExampleAccepted()
    ensures EmailPattern("jane" + "@" + "mail" + "." + "com")
  {
    EmailAcceptsSimpleAddress("jane", "mail", "com");
  }

  /** A host name without a dot is no domain. */
  lemma EmailExampleRejected()
    ensures !EmailPattern("jane@localhost")
  {
    var u := "jane@localhost";
    assert TrimStart(u) == u;
    assert TrimEnd(u) == u;
    forall i | 0 <= i < |u| && u[i] == '@'
      ensures '.' !in u[i + 1..]
    {
      assert i == 4;
      assert u[5..] == "localhost";
    }
  }
}

=== FILE: server.dfy ===
/**
 * The two pieces of app/server.js that decide what a request gets before and
 * after the controllers: the token gate mounted on `/api/v1`, and the two
 * handlers at the end of the middleware chain (the error handler and the
 * "Not Found" fallback).
 */
module Server {
  import opened Wrappers
  import opened JsValues
  import opened Store
  import opened Base
  import ItemController

  // ----- the token gate -----

  /** The lower-case form of an ASCII letter; every other character is kept. */
  function LowerChar(c: char): (r: char)
    ensures 'A' <= c <= 'Z' ==> 'a' <= r <= 'z'
    ensures !('A' <= c <= 'Z') ==> r == c
  {
    if 'A' <= c <= 'Z' then (c as int + 32) as char else c
  }

  function AsciiLower(s: string): (r: string)
    ensures |r| == |s|
    ensures forall i | 0 <= i < |s| :: r[i] == LowerChar(s[i])
  {
    if s == [] then [] else [LowerChar(s[0])] + AsciiLower(s[1..])
  }

  const Mount: string := "/api/v1"

  /**
   * A middleware mounted on a path sees the requests whose path is that
   * path or continues it with `/`, compared without regard to case.
   */
  predicate Protected(path: string) {
    var p := AsciiLower(path);
    p == Mount || Mount + "/" <= p
  }

  /** A row carries this token: `where({token})` finds it. */
  predicate HoldsToken(users: map<int, UserRow>, token: string) {
    exists id | id in users :: users[id].token == token
  }

  /** What the gate does with a request. */
  datatype GateResult =
    | NotProtected            // the gate is not mounted on this path
    | Proceed(user: UserView) // `req.user` is set and `next()` is called
    | Unauthorized            // 401 with an empty body
    | Forward(error: JsError) // the lookup failed: `next(err)`

  /**
   * The `/api/v1` middleware. The header is absent (`None`) or a string; an
   * empty string is falsy and refused without a lookup. `lookupFault` is the
   * error the token query rejects with, if it does.
   */
  method TokenGate(db: Db, path: string, authorization: Option<string>, lookupFault: Option<JsError>) returns (r: GateResult)
    ensures r.NotProtected? <==> !Protected(path)
    ensures Protected(path) && (authorization == None || authorization == Some("")) ==> r == Unauthorized
    ensures r.Forward? <==> Protected(path) && authorization.Some? && authorization.value != "" && lookupFault.Some?
    ensures r.Forward? ==> r.error == lookupFault.value
    ensures r.Proceed? <==>
      Protected(path) && authorization.Some? && authorization.value != "" && lookupFault.None? && HoldsToken(db.users, authorization.value)
    ensures r.Proceed? ==> exists id | id in db.users :: db.users[id].token == authorization.value && r.user == UserProjection(id, db.users[id])
  {
    if !Protected(path) {
      return NotProtected;
    }
    if authorization.None? || authorization.value == "" {
      return Unauthorized;
    }
    var token := authorization.value;
    if lookupFault.Some? {
      return Forward(lookupFault.value);
    }
    if id :| id in db.users && db.users[id].token == token {
      return Proceed(UserProjection(id, db.users[id]));
    }
    r := Unauthorized;
  }

  /** Lower-casing twice is lower-casing once. */
  lemma LowerIdempotent(s: string)
    ensures AsciiLower(AsciiLower(s)) == AsciiLower(s)
  {
  }

  /** The gate sees a path exactly as it sees its lower-case form. */
  lemma ProtectedIgnoresCase(path: string)
    ensures Protected(path) <==> Protected(AsciiLower(path))
  {
    LowerIdempotent(path);
  }

  /**
   * A path whose lower-case form differs from the mount within its first
   * seven characters is not behind it: `/api/login`, `/api/register` and
   * `/api/item` differ at index 5.
   */
  lemma NotProtectedAt(path: string, i: nat)
    requires i < |Mount| && i < |path| && LowerChar(path[i]) != Mount[i]
    ensures !Protected(path)
  {
    var p := AsciiLower(path);
    assert p[i] != Mount[i];
  }

  /** Paths that merely start with the mount's letters, such as `/api/v10`, are not behind it. */
  lemma ProtectedNeedsSegment(rest: string)
    requires rest != [] && rest[0] != '/'
    ensures !Protected(Mount + rest)
  {
    var p := AsciiLower(Mount + rest);
    assert p[7] == LowerChar(rest[0]) != '/';
  }

  // ----- the error handler -----

  /**
   * The body the error handler sends: `status: "error"`, the message, and
   * for an `Error` instance the error itself as `detail`.
   */
  datatype ErrorReport = ErrorReport(status: string, message: JsValue, detail: Option<JsError>)

  datatype ErrorResponse = ErrorResponse(status: JsValue, report: ErrorReport)

  /**
   * The four-argument middleware: an `Error` instance reports its `message`
   * and itself, anything else its `msg`; the status is the error's `code`
   * when that is truthy and 500 otherwise.
   */
  function HandleError(err: JsError): (r: ErrorResponse)
    ensures Truthy(r.status)
    ensures Truthy(err.code) ==> r.status == err.code
    ensures !Truthy(err.code) ==> r.status == Num(Finite(500, 0))
    ensures r.report.status == "error"
    ensures r.report.detail.Some? <==> err.isErrorInstance
    ensures r.report.detail.Some? ==> r.report.detail.value == err
    ensures r.report.message == if err.isErrorInstance then err.message else err.msg
  {
    var message := if err.isErrorInstance then err.message else err.msg;
    var detail := if err.isErrorInstance then Some(err) else None;
    var status := if Truthy(err.code) then err.code else Num(Finite(500, 0));
    ErrorResponse(status, ErrorReport("error", message, detail))
  }

  /**
   * An upload request without a file throws when `uploadImage` reads the
   * file's size; the error carries no code, so the answer is 500 with the
   * TypeError's message and the error itself as detail.
   */
  lemma MissingUploadIs500()
    ensures HandleError(ItemController.MissingFileError).status == Num(Finite(500, 0))
    ensures HandleError(ItemController.MissingFileError).report.message == Str("Cannot read property 'size' of undefined")
    ensures HandleError(ItemController.MissingFileError).report.detail == Some(ItemController.MissingFileError)
  {
  }

  // ----- the fallback -----

  datatype NotFoundReport = NotFoundReport(url: string, error: string)

  /** The last middleware: no route answered, so 404 with the original URL. */
  function Unmatched(originalUrl: string): (r: (int, NotFoundReport))
    ensures r.0 == 404
    ensures r.1.url == originalUrl && r.1.error == "Not Found"
  {
    (404, NotFoundReport(originalUrl, "Not Found"))
  }
}

=== FILE: store.dfy ===
/**
 * The state the controllers work on: the `user` and `item` tables (see
 * app/migrations/001.user.migration.js and 002.item.migration.js), each a
 * map from the auto-incremented id to the row, and the uploads directory, a
 * set of file names.
 *
 * Rows keep the request values they were written with; the column types and
 * NOT NULL constraints of the migrations are not enforced here.
 */
module Store {
  import opened Wrappers
  import opened JsValues

  datatype UserRow = UserRow(
    name: JsValue, email: JsValue, phone: JsValue, password: JsValue,
    token: string, createdAt: int, updatedAt: int)

  /** `image` is the uploaded file's name, or NULL. */
  datatype ItemRow = ItemRow(
    title: JsValue, price: JsValue, image: Option<string>,
    userId: int, createdAt: int, updatedAt: int)

  /** The public projection of a user: `['id', 'name', 'email', 'phone']`. */
  datatype UserView = UserView(id: int, name: JsValue, email: JsValue, phone: JsValue)

  /** The public projection of an item: `['id', 'title', 'price', 'image', 'user_id', 'created_at']`. */
  datatype ItemView = ItemView(id: int, title: JsValue, price: JsValue, image: Option<string>, userId: int, createdAt: int)

  function UserProjection(id: int, row: UserRow): UserView {
    UserView(id, row.name, row.email, row.phone)
  }

  function ItemProjection(id: int, row: ItemRow): ItemView {
    ItemView(id, row.title, row.price, row.image, row.userId, row.createdAt)
  }

  predicate IsNullish(v: JsValue) { v == Undefined || v == Null }

  /** `where({column: value})`: SQL equality, which NULL never satisfies. */
  predicate SqlEquals(column: JsValue, value: JsValue) {
    !IsNullish(column) && !IsNullish(value) && StrictEquals(column, value)
  }

  /** text occurs somewhere in s. */
  predicate Contains(s: string, text: string) {
    exists i | 0 <= i <= |s| :: text <= s[i..]
  }

  /** `column LIKE '%text%'` with no wildcard inside text: a NULL column never matches. */
  predicate LikeContains(column: JsValue, text: string) {
    !IsNullish(column) && Contains(ToStr(column), text)
  }

  /** `path.resolve(uploads + image)`: a NULL image names the file "null". */
  function ImageFile(image: Option<string>): string {
    if image.Some? then image.value else "null"
  }

  class Db {
    var users: map<int, UserRow>
    var items: map<int, ItemRow>
    var files: set<string>
    var nextUserId: int
    var nextItemId: int

    /** Ids are positive and below the next auto-increment value. */
    ghost predicate Valid()
      reads this
    {
      && 0 < nextUserId && 0 < nextItemId
      && (forall id | id in users :: 0 < id < nextUserId)
      && (forall id | id in items :: 0 < id < nextItemId)
    }

    constructor (files: set<string>)
      ensures Valid()
      ensures users == map[] && items == map[] && this.files == files
    {
      users := map[];
      items := map[];
      this.files := files;
      nextUserId := 1;
      nextItemId := 1;
    }

    /** `insert` into `user`: the new row gets the next id, which no row had. */
    method InsertUser(row: UserRow) returns (id: int)
      requires Valid()
      modifies this
      ensures Valid()
      ensures id == old(nextUserId) && id !in old(users) && id > 0
      ensures users == old(users)[id := row] && nextUserId == id + 1
      ensures items == old(items) && files == old(files) && nextItemId == old(nextItemId)
    {
      id := nextUserId;
      users := users[id := row];
      nextUserId := nextUserId + 1;
    }

    /** `insert` into `item`. */
    method InsertItem(row: ItemRow) returns (id: int)
      requires Valid()
      modifies this
      ensures Valid()
      ensures id == old(nextItemId) && id !in old(items) && id > 0
      ensures items == old(items)[id := row] && nextItemId == id + 1
      ensures users == old(users) && files == old(files) && nextUserId == old(nextUserId)
    {
      id := nextItemId;
      items := items[id := row];
      nextItemId := nextItemId + 1;
    }

    /** `update ... where({id})` on `user`. */
    method PutUser(id: int, row: UserRow)
      requires Valid() && id in users
      modifies this
      ensures Valid()
      ensures users == old(users)[id := row]
      ensures items == old(items) && files == old(files)
      ensures nextUserId == old(nextUserId) && nextItemId == old(nextItemId)
    {
      users := users[id := row];
    }

    /** `update ... where({id})` on `item`. */
    method PutItem(id: int, row: ItemRow)
      requires Valid() && id in items
      modifies this
      ensures Valid()
      ensures items == old(items)[id := row]
      ensures users == old(users) && files == old(files)
      ensures nextUserId == old(nextUserId) && nextItemId == old(nextItemId)
    {
      items := items[id := row];
    }

    /** `where({id}).del()` on `item`. */
    method DeleteItem(id: int)
      requires Valid()
      modifies this
      ensures Valid()
      ensures items == old(items) - {id}
      ensures users == old(users) && files == old(files)
      ensures nextUserId == old(nextUserId) && nextItemId == old(nextItemId)
    {
      items := items - {id};
    }

    /** `fs.unlinkSync`: the file must exist. */
    method Unlink(name: string)
      requires Valid() && name in files
      modifies this
      ensures Valid()
      ensures files == old(files) - {name}
      ensures users == old(users) && items == old(items)
      ensures nextUserId == old(nextUserId) && nextItemId == old(nextItemId)
    {
      files := files - {name};
    }
  }
}

=== FILE: user_controller.dfy ===
/**
 * The user controller (app/controllers/user.controller.js): login by email
 * and password, registration, updating the signed-in user, and listing and
 * reading users. Registration and update validate with the four regular
 * expressions of the Patterns module and with store lookups for the
 * uniqueness of the email and for the current password.
 *
 * The signed-in user (`req.user`, set by the token gate), the new token
 * (`uuid.v1()`) and the clock are parameters.
 */
module UserController {
  import opened Wrappers
  import opened JsValues
  import opened Patterns
  import opened Base
  import opened Store

  // ----- request shapes -----

  /** The body fields registration and update read. */
  datatype UserBody = UserBody(
    name: JsValue, email: JsValue, phone: JsValue, password: JsValue,
    currentPassword: JsValue, newPassword: JsValue)

  /** `validUser`: a key the validator set (Some) or never set (None). */
  datatype UserFields = UserFields(name: Option<JsValue>, email: Option<JsValue>, phone: Option<JsValue>, password: Option<JsValue>)

  datatype LoginBody = LoginBody(email: JsValue, password: JsValue)

  /** The query string of `GET /api/v1/user`. */
  datatype UserQuery = UserQuery(name: JsValue, email: JsValue)

  // ----- validation rules -----

  const WrongEmail := FieldError("email", "Wrong email")
  const EmailInUse := FieldError("email", "Email already in use")
  const WrongPhone := FieldError("phone", "Wrong phone")
  const WrongPassword := FieldError("password", "Wrong password")
  const NameTooShort := FieldError("name", "Name should contain at least 3 characters")
  const WrongNewPassword := FieldError("new_password", "Wrong new password")
  const WrongCurrentPassword := FieldError("current_password", "Wrong current password")
  const SamePassword := FieldError("new_password", "New password should not be same as current password")

  /** The answer to a failed login: both fields, the same message, so neither is singled out. */
  const LoginRejected := [
    FieldError("email", "Wrong email or password"),
    FieldError("password", "Wrong email or password")]

  /** Some row has this email: `select('id').where({email})`. */
  predicate EmailTaken(users: map<int, UserRow>, email: JsValue) {
    exists id | id in users :: SqlEquals(users[id].email, email)
  }

  /** Some row other than `self` has this email: `.andWhere('id', '<>', self)`. */
  predicate EmailTakenByOther(users: map<int, UserRow>, email: JsValue, self: int) {
    exists id | id in users && id != self :: SqlEquals(users[id].email, email)
  }

  function CreateErrors(users: map<int, UserRow>, user: UserBody): seq<FieldError> {
    Unless(EmailExec(user.email), WrongEmail)
    + Unless(!EmailTaken(users, user.email), EmailInUse)
    + Unless(!Truthy(user.phone) || PhoneExec(user.phone), WrongPhone)
    + Unless(PasswordExec(user.password), WrongPassword)
    + Unless(NameExec(user.name), NameTooShort)
  }

  function CreateFields(user: UserBody): UserFields {
    UserFields(
      if NameExec(user.name) then Some(user.name) else None,
      if EmailExec(user.email) then Some(user.email) else None,
      if Truthy(user.phone) && PhoneExec(user.phone) then Some(user.phone) else None,
      if PasswordExec(user.password) then Some(user.password) else None)
  }

  /** The three checks of a password change, given the stored password. */
  function PasswordChangeErrors(stored: JsValue, user: UserBody): seq<FieldError> {
    if Truthy(user.currentPassword) then
      Unless(PasswordExec(user.newPassword), WrongNewPassword)
      + Unless(StrictEquals(user.currentPassword, stored), WrongCurrentPassword)
      + Unless(!StrictEquals(user.newPassword, user.currentPassword), SamePassword)
    else []
  }

  function UpdateErrors(users: map<int, UserRow>, user: UserBody, self: int): seq<FieldError>
    requires self in users
  {
    Unless(!Truthy(user.phone) || PhoneExec(user.phone), WrongPhone)
    + Unless(!Truthy(user.name) || NameExec(user.name), NameTooShort)
    + Unless(!Truthy(user.email) || EmailExec(user.email), WrongEmail)
    + Unless(!(Truthy(user.email) && EmailTakenByOther(users, user.email, self)), EmailInUse)
    + PasswordChangeErrors(users[self].password, user)
  }

  function UpdateFields(user: UserBody): UserFields {
    UserFields(
      if Truthy(user.name) && NameExec(user.name) then Some(user.name) else None,
      if Truthy(user.email) && EmailExec(user.email) then Some(user.email) else None,
      if Truthy(user.phone) && PhoneExec(user.phone) then Some(user.phone) else None,
      if Truthy(user.currentPassword) then Some(user.newPassword) else None)
  }

  predicate NoFields(fields: UserFields) {
    fields.name.None? && fields.email.None? && fields.phone.None? && fields.password.None?
  }

  /** The row after `update(validUser)` with `updated_at` added. */
  function UpdatedUser(row: UserRow, fields: UserFields, now: int): UserRow {
    row.(
      name := if fields.name.Some? then fields.name.value else row.name,
      email := if fields.email.Some? then fields.email.value else row.email,
      phone := if fields.phone.Some? then fields.phone.value else row.phone,
      password := if fields.password.Some? then fields.password.value else row.password,
      updatedAt := now)
  }

  // ----- validators -----


  /** `_validateUserCreate`: all five checks run; the email lookup runs whatever the format check said. */
  method ValidateUserCreate(db: Db, user: UserBody) returns (validUser: UserFields, errors: seq<FieldError>)
    ensures errors == CreateErrors(db.users, user)
    ensures validUser == CreateFields(user)
  {
    validUser := UserFields(None, None, None, None);
    errors := [];
    if !EmailExec(user.email) {
      errors := errors + [WrongEmail];
    } else {
      validUser := validUser.(email := Some(user.email));
    }
    assert errors == Unless(EmailExec(user.email), WrongEmail);
    ghost var checked := errors;
    if exists id | id in db.users :: SqlEquals(db.users[id].email, user.email) {
      errors := errors + [EmailInUse];
    }
    assert errors == checked + Unless(!EmailTaken(db.users, user.email), EmailInUse);
    checked := errors;
    if Truthy(user.phone) && !PhoneExec(user.phone) {
      errors := errors + [WrongPhone];
    } else if Truthy(user.phone) {
      validUser := validUser.(phone := Some(user.phone));
    }
    assert errors == checked + Unless(!Truthy(user.phone) || PhoneExec(user.phone), WrongPhone);
    checked := errors;
    if !PasswordExec(user.password) {
      errors := errors + [WrongPassword];
    } else {
      validUser := validUser.(password := Some(user.password));
    }
    assert errors == checked + Unless(PasswordExec(user.password), WrongPassword);
    checked := errors;
    if !NameExec(user.name) {
      errors := errors + [NameTooShort];
    } else {
      validUser := validUser.(name := Some(user.name));
    }
    assert errors == checked + Unless(NameExec(user.name), NameTooShort);
  }

  /**
   * `_validateUserUpdate`, with `user.id` already forced to `self`, the
   * signed-in user: falsy fields are skipped, the email must not belong to
   * another row, and a password change is checked only when the current
   * password is given.
   */
  method ValidateUserUpdate(db: Db, user: UserBody, self: int) returns (validUser: UserFields, errors: seq<FieldError>)
    requires self in db.users
    ensures errors == UpdateErrors(db.users, user, self)
    ensures validUser == UpdateFields(user)
  {
    validUser := UserFields(None, None, None, None);
    errors := [];
    if Truthy(user.phone) && !PhoneExec(user.phone) {
      errors := errors + [WrongPhone];
    } else if Truthy(user.phone) {
      validUser := validUser.(phone := Some(user.phone));
    }
    assert errors == Unless(!Truthy(user.phone) || PhoneExec(user.phone), WrongPhone);
    assert validUser == UserFields(None, None, UpdateFields(user).phone, None);
    ghost var checked := errors;
    if Truthy(user.name) && !NameExec(user.name) {
      errors := errors + [NameTooShort];
    } else if Truthy(user.name) {
      validUser := validUser.(name := Some(user.name));
    }
    assert errors == checked + Unless(!Truthy(user.name) || NameExec(user.name), NameTooShort);
    assert validUser == UserFields(UpdateFields(user).name, None, UpdateFields(user).phone, None);
    checked := errors;
    if Truthy(user.email) && !EmailExec(user.email) {
      errors := errors + [WrongEmail];
    } else if Truthy(user.email) {
      validUser := validUser.(email := Some(user.email));
    }
    assert errors == checked + Unless(!Truthy(user.email) || EmailExec(user.email), WrongEmail);
    assert validUser == UpdateFields(user).(password := None);
    checked := errors;
    if Truthy(user.email) && exists id | id in db.users && id != self :: SqlEquals(db.users[id].email, user.email) {
      errors := errors + [EmailInUse];
    }
    assert errors == checked + Unless(!(Truthy(user.email) && EmailTakenByOther(db.users, user.email, self)), EmailInUse);
    var passwordErrors, password := CheckPasswordChange(db.users[self].password, user);
    errors := errors + passwordErrors;
    validUser := validUser.(password := password);
  }

  /**
   * The `if (user.current_password)` block of `_validateUserUpdate`: the
   * three checks, each independent of the others, against the stored
   * password.
   */
  method CheckPasswordChange(stored: JsValue, user: UserBody) returns (errors: seq<FieldError>, password: Option<JsValue>)
    ensures errors == PasswordChangeErrors(stored, user)
    ensures password == UpdateFields(user).password
  {
    errors := [];
    password := None;
    if Truthy(user.currentPassword) {
      if !PasswordExec(user.newPassword) {
        errors := errors + [WrongNewPassword];
      }
      if !StrictEquals(user.currentPassword, stored) {
        errors := errors + [WrongCurrentPassword];
      }
      if StrictEquals(user.newPassword, user.currentPassword) {
        errors := errors + [SamePassword];
      }
      password := Some(user.newPassword);
    }
  }

  // ----- properties of the validation rules -----

  /** Registration passes exactly when every field passes and the email is free. */
  lemma CreateAcceptsIff(users: map<int, UserRow>, user: UserBody)
    ensures CreateErrors(users, user) == [] <==>
      && EmailExec(user.email) && !EmailTaken(users, user.email)
      && (Truthy(user.phone) ==> PhoneExec(user.phone))
      && PasswordExec(user.password) && NameExec(user.name)
  {
  }

  /** An accepted registration keeps every field as sent (the email untrimmed), and the phone only if given. */
  lemma CreateKeepsFields(users: map<int, UserRow>, user: UserBody)
    requires CreateErrors(users, user) == []
    ensures CreateFields(user) == UserFields(
      Some(user.name), Some(user.email), if Truthy(user.phone) then Some(user.phone) else None, Some(user.password))
  {
  }

  /** A taken email is reported whatever else is wrong with the request. */
  lemma TakenEmailAlwaysReported(users: map<int, UserRow>, user: UserBody)
    ensures EmailInUse in CreateErrors(users, user) <==> EmailTaken(users, user.email)
  {
  }

  /**
   * A registration without a name is not flagged: the name expression sees
   * the text "undefined". A missing email or password is.
   */
  lemma MissingNameNotReported(users: map<int, UserRow>, user: UserBody)
    requires user.name == Undefined
    ensures NameTooShort !in CreateErrors(users, user)
    ensures CreateFields(user).name == Some(Undefined)
  {
    MissingFieldPassesTitleAndName();
  }

  lemma MissingEmailAndPasswordReported(users: map<int, UserRow>, user: UserBody)
    requires user.email == Undefined && user.password == Undefined
    ensures WrongEmail in CreateErrors(users, user) && WrongPassword in CreateErrors(users, user)
  {
    MissingFieldFailsEmailPasswordPhone();
  }

  /** On update the user's own row never makes its email "in use"; any other row with it does. */
  lemma OwnEmailNotInUse(users: map<int, UserRow>, user: UserBody, self: int)
    requires self in users
    ensures EmailInUse in UpdateErrors(users, user, self) <==>
      Truthy(user.email) && exists id | id in users && id != self :: SqlEquals(users[id].email, user.email)
  {
    assert EmailInUse !in PasswordChangeErrors(users[self].password, user);
  }

  /** Without a current password nothing about passwords is checked or kept. */
  lemma NoPasswordChangeWithoutCurrent(stored: JsValue, user: UserBody)
    requires !Truthy(user.currentPassword)
    ensures PasswordChangeErrors(stored, user) == [] && UpdateFields(user).password == None
  {
  }

  /** With one, the new password is put in `validUser` whatever the checks say. */
  lemma NewPasswordKeptRegardless(user: UserBody)
    requires Truthy(user.currentPassword)
    ensures UpdateFields(user).password == Some(user.newPassword)
  {
  }

  /** The three password-change checks are independent: all three can fire together. */
  lemma AllThreePasswordErrors(stored: JsValue)
    requires stored != Str("abc")
    ensures PasswordChangeErrors(stored, UserBody(Undefined, Undefined, Undefined, Undefined, Str("abc"), Str("abc")))
      == [WrongNewPassword, WrongCurrentPassword, SamePassword]
  {
  }

  /** A password change that passes sets the password to the new one, which differs from the stored one. */
  lemma PasswordChangeAccepted(stored: JsValue, user: UserBody)
    requires Truthy(user.currentPassword) && PasswordChangeErrors(stored, user) == []
    ensures PasswordExec(user.newPassword)
    ensures StrictEquals(user.currentPassword, stored) && !StrictEquals(user.newPassword, user.currentPassword)
  {
  }

  // ----- handlers -----

  /** `login`: the token of a row with both the email and the password given, an absent field counting as ''. */
  method Login(db: Db, body: LoginBody) returns (outcome: Outcome<string>)
    ensures var email := if body.email == Undefined then Str("") else body.email;
      var password := if body.password == Undefined then Str("") else body.password;
      && (outcome.Ok? <==> exists id | id in db.users :: SqlEquals(db.users[id].email, email) && SqlEquals(db.users[id].password, password))
      && (outcome.Ok? ==> exists id | id in db.users ::
            SqlEquals(db.users[id].email, email) && SqlEquals(db.users[id].password, password) && db.users[id].token == outcome.value)
      && (!outcome.Ok? ==> outcome == Unprocessable(LoginRejected))
  {
    var email := if body.email == Undefined then Str("") else body.email;
    var password := if body.password == Undefined then Str("") else body.password;
    if id :| id in db.users && SqlEquals(db.users[id].email, email) && SqlEquals(db.users[id].password, password) {
      return Ok(db.users[id].token);
    }
    outcome := Unprocessable(LoginRejected);
  }

  /** The row registration inserts: the validated fields, the token and the two clock readings. */
  function NewUserRow(fields: UserFields, token: string, createdAt: int, updatedAt: int): UserRow
    requires fields.name.Some? && fields.email.Some? && fields.password.Some?
  {
    UserRow(fields.name.value, fields.email.value, if fields.phone.Some? then fields.phone.value else Null,
      fields.password.value, token, createdAt, updatedAt)
  }

  /** `register`: inserts only when validation found nothing, and answers with the new token alone. */
  method Register(db: Db, user: UserBody, token: string, createdAt: int, updatedAt: int) returns (outcome: Outcome<string>)
    requires db.Valid()
    modifies db
    ensures db.Valid()
    ensures db.items == old(db.items) && db.files == old(db.files) && db.nextItemId == old(db.nextItemId)
    ensures CreateErrors(old(db.users), user) != [] ==>
      outcome == Unprocessable(CreateErrors(old(db.users), user)) && db.users == old(db.users) && db.nextUserId == old(db.nextUserId)
    ensures CreateErrors(old(db.users), user) == [] ==>
      var id := old(db.nextUserId);
      var row := UserRow(user.name, user.email, if Truthy(user.phone) then user.phone else Null, user.password, token, createdAt, updatedAt);
      && id !in old(db.users) && db.users == old(db.users)[id := row] && db.nextUserId == id + 1
      && outcome == Ok(token)
  {
    var validUser, errors := ValidateUserCreate(db, user);
    if errors != [] {
      return Unprocessable(errors);
    }
    CreateKeepsFields(db.users, user);
    var id := db.InsertUser(NewUserRow(validUser, token, createdAt, updatedAt));
    outcome := Ok(token);
  }

  /**
   * `updateCurrentUser`: 422 changes nothing; otherwise the row is written
   * only when some field was accepted, and the signed-in user's projection
   * is returned either way.
   */
  method UpdateCurrentUser(db: Db, self: int, user: UserBody, now: int) returns (outcome: Outcome<UserView>)
    requires db.Valid() && self in db.users
    modifies db
    ensures db.Valid()
    ensures db.items == old(db.items) && db.files == old(db.files)
    ensures db.nextUserId == old(db.nextUserId) && db.nextItemId == old(db.nextItemId)
    ensures UpdateErrors(old(db.users), user, self) != [] ==>
      outcome == Unprocessable(UpdateErrors(old(db.users), user, self)) && db.users == old(db.users)
    ensures UpdateErrors(old(db.users), user, self) == [] && NoFields(UpdateFields(user)) ==>
      db.users == old(db.users) && outcome == Ok(UserProjection(self, old(db.users)[self]))
    ensures UpdateErrors(old(db.users), user, self) == [] && !NoFields(UpdateFields(user)) ==>
      var row := UpdatedUser(old(db.users)[self], UpdateFields(user), now);
      db.users == old(db.users)[self := row] && outcome == Ok(UserProjection(self, row))
  {
    var validUser, errors := ValidateUserUpdate(db, user, self);
    if errors != [] {
      return Unprocessable(errors);
    }
    if !NoFields(validUser) {
      db.PutUser(self, UpdatedUser(db.users[self], validUser, now));
    }
    outcome := Ok(UserProjection(self, db.users[self]));
  }

  /** `getUsers`: the projections of the users whose name and email contain the query texts. */
  method GetUsers(db: Db, query: UserQuery) returns (rows: set<UserView>)
    ensures var name := if query.name == Undefined then "" else ToStr(query.name);
      var email := if query.email == Undefined then "" else ToStr(query.email);
      forall id | id in db.users ::
        UserProjection(id, db.users[id]) in rows <==> LikeContains(db.users[id].name, name) && LikeContains(db.users[id].email, email)
    ensures forall v | v in rows :: v.id in db.users && v == UserProjection(v.id, db.users[v.id])
  {
    var name := if query.name == Undefined then "" else ToStr(query.name);
    var email := if query.email == Undefined then "" else ToStr(query.email);
    rows := set id | id in db.users && LikeContains(db.users[id].name, name) && LikeContains(db.users[id].email, email)
      :: UserProjection(id, db.users[id]);
  }

  /** `getUser`: the projection, never the password or token, or 404. */
  method GetUser(db: Db, rawId: string) returns (outcome: Outcome<UserView>)
    ensures RouteKey(rawId, db.users.Keys).None? ==> outcome == NotFound
    ensures RouteKey(rawId, db.users.Keys).Some? ==>
      var id := RouteKey(rawId, db.users.Keys).value;
      id in db.users && outcome == Ok(UserProjection(id, db.users[id]))
  {
    var key := RouteKey(rawId, db.users.Keys);
    if key.None? {
      return NotFound;
    }
    outcome := Ok(UserProjection(key.value, db.users[key.value]));
  }
}

=== FILE: wrappers.dfy ===
/** An optional value, for lookups that may find nothing. */
module Wrappers {
  datatype Option<+T> = None | Some(value: T)
}
